=== FILE: README.md ===
# obiTaxonomy in Dafny

A model of the core of `obiTaxonomy.py`, the NCBI taxonomy module of the
Orange bioinformatics add-on. It covers two parts, and the properties proved
about them.

**`TextDB`** is a record store kept in one string buffer:

- A record is encoded as `chr(255)`, then its fields joined by `chr(253)`, then `chr(254)` and a newline.
- Appending, looking up, searching and iterating all scan that buffer with `find` and `rfind`.
- The scan runs over a lower-cased copy of the buffer.
- Lookups go through a per-instance cache, which the `cached` decorator fills.

**The dump compiler `Taxonomy.ParseTaxdumpFile`** reads the lines of NCBI's `names.dmp` and `nodes.dmp` and writes two stores:

- one taxon record `id, parent, rank, names...` per taxon;
- one class record `id, classes...` per taxon.

The names are stably sorted by a first-come name-class code, with "scientific name" forced to code 0. On top of the stores, `Taxonomy` answers three queries:

- `taxonomy[id]`, the first name written for the taxon, which is its scientific name when it has one;
- `other_names(id)`;
- `search(text, onlySpecies)`.

## How the modules map to the program

| Module | File | Models |
|---|---|---|
| `Wrappers` | `wrappers.dfy` | `Option` and `Result` |
| `Strings` | `strings.dfy` | Python's `str.find`, `rfind`, slicing with negative bounds, `split` (all pieces, and `maxsplit=1`), `join`, `rstrip` and ASCII `lower()`. `find`, `rfind`, `split(sep, 1)`, `rstrip` and `lower()` carry contracts of their own; `split` and `join` are tied together by round-trip lemmas |
| `Codec` | `codec.dfy` | The three markers, the record encoding, and the layout of a buffer written record by record: where each record starts, where its end marker sits, and what lower-casing does to it |
| `Cache` | `cache.dfy` | The `cached` decorator, as a function of the cache, the argument and the wrapped computation |
| `TextDB` | `textdb.dfy` | Every `TextDB` operation, read byte by byte from the buffer as the source does |
| `Records`, `Queries`, `Lookup` | `records.dfy`, `queries.dfy`, `lookup.dfy` | The same operations restated record by record over a well-formed buffer (`Buffer(rs)` with marker-free fields), with the lemmas linking the two views |
| `Taxonomy` | `taxonomy.dfy` | `search`, `__iter__`, `__getitem__` and `other_names` over the two stores |
| `TaxDump` | `taxdump.dfy` | The names loop, the nodes loop, the class codes, the stable sort and the emit loop. The order in which `namesDict.items()` hands out the ids is a parameter: any order that lists every id once (`TaxDump.EmitOrder`) |
| `Compiled` | `compiled.dfy` | The two together: the stores the compiler writes, read back through `Taxonomy` |

### Behaviour modelled as the code has it

- **Lookups do not lower-case the id.** `get_entry` does not lower-case its pattern, but it scans the lower-cased buffer. So an id with an upper-case ASCII letter is never found by a lookup that misses the cache (`Lookup.LookUpUpper`), and a record is found under the lower-cased form of its id (`Lookup.IsKeyOf`). A search, though, caches each record it hits under the record's own id, upper-case letters included, and from then on `db[id]` answers that id from the cache (`Lookup.UpperFoundAfterSearch`). The species filter of `Taxonomy.search` looks ids up along this path.
- **A search overwrites the cache.** `search` stores every entry it reports under its id with no check (`obiTaxonomy.py:88`), so it replaces what `get_entry` cached before. With two records of one id, the body of the last matching one stays cached (`Queries.SearchReplaces`). The same happens when `get_entry("abc")` has cached a record with id "ABC" and a search then hits a record with id "abc".
- **A record holding only an id is never found.** Its encoding has no separator.
- **`Taxonomy` raises `NameError` for an unknown id.** Its handlers raise the undefined `UnknownSpiciesIdentifier`, which is a `NameError`.
- **A short entry raises `IndexError`.**
- **The scientific name is first only when the taxon has one.** The comments at `obiTaxonomy.py:153` and `:204` say the first name is always the scientific name. The code guarantees this only for taxa that have a name of class "scientific name". For any other taxon, the first name is the one whose class got the lowest code (`TaxDump.ByCode`), and which class that is can depend on the emit order.
- **A failed unpack stops the compilation before anything is written.** The failure comes from a line of either file.
- **A missing node or a 256th name class stops the compilation part-way.** The records written before the stop stay written (`TaxDump.Dump`).

## Model

| member | source | states |
|---|---|---|
| Cache.Cached | obiTaxonomy.py:21-30 | A cached argument is answered from the cache, which is left as it was. Otherwise the answer is the wrapped call's, stored under the argument only when the call returns. An exception caches nothing, no earlier entry changes, and a cache holding only true answers keeps answering as the wrapped call does. |
| Strings.Find | obiTaxonomy.py:58 | `find` returns the first match at or after the clamped start, or -1 exactly when there is none. |
| Strings.RFind | obiTaxonomy.py:70 | `rfind(pat, 0, end)` returns the last match that ends by the clamped end, or -1. |
| Strings.SplitOnce | obiTaxonomy.py:87 | `split(sep, 1)` gives one piece exactly when `sep` does not occur, and otherwise two pieces that rejoin to the input, the first holding no separator. |
| Strings.SplitJoin | obiTaxonomy.py:103 | Splitting pieces joined by a separator that none of them contains gives the pieces back. |
| Strings.JoinSplit | obiTaxonomy.py:178 | Joining the pieces of a split with the separator gives back the split string. |
| Strings.RStrip | obiTaxonomy.py:178 | `rstrip(chars)` keeps a prefix, removes only characters of the set, and leaves a last character outside the set. |
| Strings.LowerIsLowerCase | obiTaxonomy.py:43 | Lower-casing leaves no upper-case letter, and it is the identity exactly on strings without one. |
| Codec.Encode | obiTaxonomy.py:92-93 | The bytes `insert` appends for one record. `Codec.DecodeBody` states that the body between the markers decodes back to the fields. |
| Codec.Decode | obiTaxonomy.py:103 | `split(chr(253))` gives at least one piece, and the pieces joined with the separator give back the entry. |
| Codec.Buffer | obiTaxonomy.py:92-93 | A store written record by record. `Codec.Layout` states where each record sits in it. |
| Codec.DecodeBody | obiTaxonomy.py:93 | Splitting the body of a record of marker-free fields on the separator gives the fields back. |
| Codec.FirstFieldOfBody | obiTaxonomy.py:99 | Splitting a body once on the separator gives the first field first, and two pieces exactly when the record has a second field. |
| Codec.BodyEmpty | obiTaxonomy.py:98 | A body is empty exactly when the record has no field or one empty field: the records iteration skips. |
| Codec.Layout | obiTaxonomy.py:93 | In a buffer written record by record, record `k` occupies the bytes from its offset to the next record's offset, and those bytes are its encoding. |
| Codec.RecordInterior | obiTaxonomy.py:33-35 | Inside a record of marker-free fields, the start marker occurs only at its first byte, and the end marker only right before its closing newline. |
| Codec.LowerBuffer | obiTaxonomy.py:56 | The lower-cased buffer is the buffer of the lower-cased records. |
| Codec.LowerRecordsLayout | obiTaxonomy.py:56 | Lower-casing keeps every record at its offset, and keeps the fields marker-free. |
| TextDB.Empty | obiTaxonomy.py:46-50 | `TextDB()`: an empty buffer and an empty cache. `Lookup.EmptyStore` states that it is the store of no records. |
| TextDB.Open | obiTaxonomy.py:46-53 | `TextDB(file)`: the file's contents with an empty cache. `Lookup.OpenSound` states what a store opened on a written file holds. |
| TextDB.ScanProgress | obiTaxonomy.py:57-64 | Each step of `_find_all` moves strictly forward, unless the scan is one that never ends. A restart at `find(string, -1)` then finds nothing. |
| TextDB.RestartFindsNothing | obiTaxonomy.py:62 | When no start marker follows a hit, the restarted scan finds nothing, unless the pattern matches at the last byte. |
| TextDB.ScanYields | obiTaxonomy.py:55-66 | Every hit of `_find_all` is a match at or after the start, the hits strictly ascend, and in unique mode a start marker lies between consecutive hits. |
| TextDB.FindAllFrom | obiTaxonomy.py:55-66 | `_find_all` from any start. Its contract is carried by `TextDB.ScanYields`, and its termination by `TextDB.ScanProgress`. |
| TextDB.FindAll | obiTaxonomy.py:55-66 | `_find_all` from offset 0 yields ascending matches, and in unique mode at most one between two start markers. |
| TextDB.GetEntryAt | obiTaxonomy.py:68-72 | `_get_entry_at`. What it returns inside a record is stated by `Records.EntryBetween` and `Records.EntryAt`: the text strictly between the record's markers. |
| TextDB.LookUp | obiTaxonomy.py:76-79 | The lookup fails with `KeyError(id)` exactly when the key pattern does not occur in the lower-cased buffer. |
| TextDB.GetEntry | obiTaxonomy.py:74-80 | `get_entry` answers from the cache when the id is cached, and otherwise as the lookup does. It caches only successes, never changes an earlier entry and never touches the buffer. |
| TextDB.CollectHits | obiTaxonomy.py:85-90 | The search loop reports one id per hit and caches every reported id. It adds nothing else to the cache, and it fails only with `ValueError`, the failed unpacking of an entry without a separator. |
| TextDB.Search | obiTaxonomy.py:82-90 | `search` leaves the buffer unchanged and keeps every cached key. A hit replaces the value cached under its id (`Queries.SearchLastWins`). |
| TextDB.Insert | obiTaxonomy.py:92-93 | `insert` keeps the old buffer as a prefix and appends a start marker, a body and the end marker. The cache is untouched. |
| TextDB.SetItem | obiTaxonomy.py:105-106 | `db[id] = fields` keeps the old buffer as a prefix and appends exactly the record `id, fields...` between a start and an end marker. The cache is untouched. `Lookup.SetThenGet` reads the record back. |
| TextDB.IdsAt | obiTaxonomy.py:96-99 | The loop body of `__iter__`. `Queries.IterRecords` states what it yields on a well-formed store. |
| TextDB.Iter | obiTaxonomy.py:95-99 | `__iter__`. `Queries.IterRecords` states that it yields the id of every non-blank record, in insertion order. |
| TextDB.Create | obiTaxonomy.py:108-110 | `create` starts the file with the current buffer. `Lookup.CreateThenWrite` states what the file holds after the writes. |
| TextDB.Write | obiTaxonomy.py:111-112 | One call of the writer appends one encoded record. `Lookup.WriteAllRecords` states the result of a run of calls. |
| TextDB.WriteAll | obiTaxonomy.py:111-112 | A run of writer calls. `Lookup.WriteAllRecords` states that it appends the buffer of the written records. |
| TextDB.GetItem | obiTaxonomy.py:101-103 | `db[id]` leaves the buffer as it was, and a failed lookup raises `KeyError(id)` without caching. |
| Records.EntryBetween | obiTaxonomy.py:68-72 | Between a start marker and the next end marker, `_get_entry_at` at any offset gives the text strictly between the two markers. |
| Records.EntryAt | obiTaxonomy.py:68-72 | For any offset from a record's start marker to its end marker, `_get_entry_at` returns that record's body. |
| Records.NextStart | obiTaxonomy.py:62 | After a hit inside record `k`, the next start marker is record `k+1`'s, or there is none after the last record. |
| Records.ScanRecords | obiTaxonomy.py:55-66 | On a well-formed buffer, the unique scan yields, for every record in order, the first match inside the record, and nothing for records without one. |
| Queries.IterRecords | obiTaxonomy.py:95-99 | Iterating a well-formed store terminates and yields the first field of every record that is not blank, in insertion order. |
| Queries.HitInRecord | obiTaxonomy.py:85 | A searchable pattern is found before the next record's start exactly when the record's body holds it. |
| Queries.LoweredHit | obiTaxonomy.py:85-86 | For a searchable pattern, the case-insensitive search hits record `k` exactly when its lower-cased body holds the pattern, and the entry at the hit is the body in its original case. |
| Queries.SearchStore | obiTaxonomy.py:82-90 | On a well-formed store and a searchable pattern, `search` terminates and reports the record-level answer. That answer is one id per record whose lower-cased body holds the lower-cased pattern, in store order, each entry cached. |
| Queries.SearchKeeps | obiTaxonomy.py:88 | A search leaves the cache entry of an id that no matching record has as it was. |
| Queries.SearchLastWins | obiTaxonomy.py:82-90 | After a successful search, a matching record that no later matching record shares its id with is cached under its id with its own body, whatever the cache held there before. |
| Queries.SearchReplaces | obiTaxonomy.py:88 | With two records of one id that both hold the pattern, the search reports the id twice and leaves the second record's body cached, replacing whatever was cached under the id. |
| Queries.SearchCached | obiTaxonomy.py:88 | After a successful search over records with distinct ids, every record holding the pattern is cached under its id with its own body. |
| Queries.SearchOkIff | obiTaxonomy.py:82-90 | A search succeeds exactly when every matching record has a second field, and it then returns the ids of the matching records. |
| Queries.MatchingIdsIn | obiTaxonomy.py:82-90 | An id is reported exactly when some record with that id has a body holding the pattern. |
| Lookup.BodyKey | obiTaxonomy.py:77 | For an id without marker characters, a body starts with `id` and a separator exactly when the record's id is `id` and a second field follows. |
| Lookup.KeyAtStart | obiTaxonomy.py:77 | For an id without marker characters, the key pattern matches at a record's start exactly when that record has id `id` and a second field, so a lookup of "96" does not stop at the record of "9606". |
| Lookup.KeyNotInside | obiTaxonomy.py:77 | The key pattern never matches inside a record, only at a record's start marker. |
| Lookup.KeyScan | obiTaxonomy.py:77 | For an id without marker characters, the first hit of the key pattern is the start of the first record answering the id, or there is none. |
| Lookup.LookUpStore | obiTaxonomy.py:74-80 | On a well-formed store, `get_entry` of an uncached id without marker characters returns the body of the first record whose lower-cased id is `id` and which has a second field. If there is none, it raises `KeyError(id)`. |
| Lookup.LookUpUpper | obiTaxonomy.py:77 | An id holding an upper-case letter is never found by a lookup that misses the cache. |
| Lookup.SearchThenGet | obiTaxonomy.py:82-90 | For a searchable pattern, after a successful search `db[id]` of the id of a matching record that no later matching record shares its id with returns that record's fields after the id, from the cache. |
| Lookup.UpperFoundAfterSearch | obiTaxonomy.py:77-88 | A record whose id holds an upper-case letter is not found by `db[id]` on a fresh store, and is found once a search with a searchable pattern has hit it. |
| Lookup.GetItemStore | obiTaxonomy.py:101-103 | On a well-formed store, `db[id]` of an uncached id without marker characters returns the fields after the id of the first record answering it, or raises `KeyError(id)`. |
| Lookup.GetItemSound | obiTaxonomy.py:101-103 | With a sound cache and an id without marker characters, every answer of `db[id]`, cached or not, is the fields after the id of a record whose id equals `id` up to case. |
| Lookup.GetEntryKeepsCache | obiTaxonomy.py:74-80 | A lookup of an id without marker characters keeps the cache sound. |
| Lookup.SearchKeepsSound | obiTaxonomy.py:88 | A search for a searchable pattern keeps the cache sound: everything it caches is the body of a record under that record's id. |
| Lookup.InsertRecord | obiTaxonomy.py:92-93 | Inserting into the buffer of records `rs` gives the buffer of `rs` followed by the new record. |
| Lookup.InsertKeepsCache | obiTaxonomy.py:92-93 | Appending a record keeps a sound cache sound. |
| Lookup.FindKeyAppend | obiTaxonomy.py:92-93 | Appending a record changes no lookup that already succeeded. It makes the new record the answer to a lookup that failed, if the new record answers it. |
| Lookup.EmptyStore | obiTaxonomy.py:46-50 | `TextDB()` is the store of no records: every `db[id]` raises `KeyError(id)` without caching, and iteration yields nothing. |
| Lookup.OpenSound | obiTaxonomy.py:46-53 | A store opened on a file written record by record iterates those records' ids, and its fresh cache is sound for them. |
| Lookup.SetThenGet | obiTaxonomy.py:101-106 | After `db[id] = fields` with a fresh lower-case marker-free id and non-empty marker-free fields, `db[id]` returns `fields`. |
| Lookup.WriteAllRecords | obiTaxonomy.py:111-112 | Writing records one by one after a buffer gives the buffer of all the records. |
| Lookup.CreateThenWrite | obiTaxonomy.py:108-113 | The file `create` starts with the current buffer, and after the writer's calls the file is the buffer of the old records followed by the written ones. |
| Taxonomy.HasSpecies | obiTaxonomy.py:142 | The filter keeps a rank exactly when "species" occurs in it. |
| Taxonomy.Drop | obiTaxonomy.py:161-162 | A slice `[n:]` drops the first `n` items, giving the empty list when there are fewer. |
| Taxonomy.Zip | obiTaxonomy.py:162 | `zip` pairs items by position, as far as the shorter list reaches. |
| Taxonomy.Name | obiTaxonomy.py:148-153 | `taxonomy[id]` fails only with `NameError` or `IndexError`. A `NameError` leaves the stores as they were, and no call changes a buffer. |
| Taxonomy.NameStore | obiTaxonomy.py:148-153 | On a well-formed store, `taxonomy[id]` of an uncached id without marker characters returns the fourth field of the first record answering `id`. It raises `NameError` when there is none and `IndexError` when that record is shorter. |
| Taxonomy.NameSound | obiTaxonomy.py:148-153 | With a sound cache and an id without marker characters, every name returned is the fourth field of a record whose id equals `id` up to case. |
| Taxonomy.OtherNames | obiTaxonomy.py:155-162 | `other_names` fails only with `NameError`, or with `KeyError(id)` from the class store, and never changes a buffer. |
| Taxonomy.OtherNamesStore | obiTaxonomy.py:155-162 | On well-formed stores and for an id without marker characters, uncached in both, `other_names` pairs the names after the scientific one with the classes after the scientific one's, by position and as far as both reach. It raises `NameError` for an unknown id and `KeyError(id)` when the class store lacks the id. |
| Taxonomy.KeepSpecies | obiTaxonomy.py:141-142 | The species filter keeps some of the ids, in their order (`Taxonomy.SubSeq`), adds to the cache only, and leaves the buffer unchanged. |
| Taxonomy.KeepCached | obiTaxonomy.py:141-142 | When every id is cached, the filter reads the cache alone. It succeeds exactly when every cached entry has a rank, and it keeps exactly the ids whose rank mentions "species". |
| Taxonomy.KeepSound | obiTaxonomy.py:141-142 | With a sound cache and ids without marker characters, the filter keeps the cache sound, and every id it keeps names a record whose rank mentions "species". |
| Taxonomy.SearchTaxa | obiTaxonomy.py:139-143 | Without `onlySpecies`, `Taxonomy.search` is the store's search. With it, a result is some of the store's search result, in its order. With or without it, no buffer changes. |
| Taxonomy.SearchSpecies | obiTaxonomy.py:139-143 | For a searchable pattern, with a sound cache and any ids, every id a species search reports names a record whose lower-cased body holds the pattern, and a record whose rank mentions "species". |
| Taxonomy.SearchedRecord | obiTaxonomy.py:140-142 | On records with distinct ids, each id a successful search reports names a record holding the pattern, and the filter's lookup of that id reads that record from the cache. |
| Taxonomy.SearchSpeciesOk | obiTaxonomy.py:139-143 | On records with distinct ids, a species search for a searchable pattern succeeds exactly when every record holding the pattern has a rank. |
| Taxonomy.SearchSpeciesAll | obiTaxonomy.py:139-143 | On records with distinct ids, a successful species search for a searchable pattern reports an id exactly when some record with that id holds the pattern and has a rank mentioning "species". |
| Taxonomy.SearchSpeciesOrder | obiTaxonomy.py:139-143 | A successful species search for a searchable pattern reports ids of records holding the pattern, ignoring case, in store order, with some left out. |
| Taxonomy.Ids | obiTaxonomy.py:145-146 | `iter(taxonomy)` is the taxon store's `__iter__`. `Queries.IterRecords` states what it yields. |
| TaxDump.ParseNamesLine | obiTaxonomy.py:175-183 | One `names.dmp` line. `TaxDump.NamesLineRoundTrip` states what a line NCBI writes parses to. |
| TaxDump.NamesLineRoundTrip | obiTaxonomy.py:175-183 | A `names.dmp` line as NCBI writes it parses back to its id, and to its unique name when that is non-empty, else its name, with its class. |
| TaxDump.AddAlias | obiTaxonomy.py:180-183 | Appending to `namesDict[id]` adds the alias at the end of `id`'s list only, and records a new id once. |
| TaxDump.ParseNames | obiTaxonomy.py:174-183 | The names loop keeps every id it had, and keeps the id list and the dictionary in step. |
| TaxDump.ParseNamesOk | obiTaxonomy.py:175-179 | The names loop succeeds exactly when every non-blank line unpacks into four columns. |
| TaxDump.ParseNamesAliases | obiTaxonomy.py:174-183 | After the names loop, an id's aliases are those it had, followed by the aliases its lines give, in line order. |
| TaxDump.ParseNodesLine | obiTaxonomy.py:186-190 | One `nodes.dmp` line. `TaxDump.NodesLineRoundTrip` states what it parses to. |
| TaxDump.NodesLineRoundTrip | obiTaxonomy.py:186-190 | A line parses to its first three columns, whatever follows them, when none of those holds a tab. |
| TaxDump.ParseNodes | obiTaxonomy.py:185-191 | The nodes loop over the lines of `nodes.dmp`. `TaxDump.ParseNodesSpec` states what it builds. |
| TaxDump.ParseNodesSpec | obiTaxonomy.py:185-191 | The nodes loop succeeds exactly when every non-blank line has three columns, and it then maps every id to the parent and rank of its last line. |
| TaxDump.FirstCodes | obiTaxonomy.py:193-194 | Forcing "scientific name" first gives it code 0, with no other class known. |
| TaxDump.CodeOf | obiTaxonomy.py:193 | A known class keeps its code, and a new class takes the next free code. Once 255 codes are out, a new class fails, and well-formed codes stay well-formed. |
| TaxDump.KeyAll | obiTaxonomy.py:205 | Keying a taxon's aliases by class code keeps the aliases in order, gives each the code of its class and only adds codes. |
| TaxDump.InsertByKey | obiTaxonomy.py:205 | Inserting after the entries with keys not above its own keeps a list sorted by key. |
| TaxDump.SortByKey | obiTaxonomy.py:205 | The sort returns a list sorted by key, of the same length. |
| TaxDump.SortCount | obiTaxonomy.py:205 | The sort is a permutation. |
| TaxDump.SortKeys | obiTaxonomy.py:205 | The sort is stable: the entries with any one key keep their relative order. |
| TaxDump.KindFilter | obiTaxonomy.py:205 | With distinct codes, the aliases with one code are the aliases of one class. |
| TaxDump.SortedOrder | obiTaxonomy.py:205-207 | After the sort, names and classes stay aligned, and every class's names keep their input order. |
| TaxDump.ScientificSorted | obiTaxonomy.py:193-207 | With "scientific name" at code 0, a taxon that has a scientific name lists its first scientific name first. |
| TaxDump.SortedByCode | obiTaxonomy.py:205-207 | After the sort, the classes written are in non-decreasing code order. |
| TaxDump.ByCodeGrows | obiTaxonomy.py:193 | Code order stays true as later classes get codes, because a class never changes its code. |
| TaxDump.EmitTaxon | obiTaxonomy.py:201-207 | A taxon without a node fails with `MissingNode`, and one that needs a 256th class fails with `TooManyClasses`. Otherwise its records are `[id, parent, rank] + names` and `[id] + classes`. Names and classes are aligned, each class keeps its names in line order, and a scientific name comes first. The classes are in non-decreasing order of the codes the call returns. |
| TaxDump.EmitAll | obiTaxonomy.py:200-209 | The emit loop writes one taxon per id until the first failure, which belongs to the next id, and it finishes exactly when nothing fails. |
| TaxDump.EmitAt | obiTaxonomy.py:200-209 | The i-th taxon written belongs to the i-th id of the order. Its header is that id's node, and its aliases are ordered as `TaxDump.Ordered` says. |
| TaxDump.CodesAfterGrows | obiTaxonomy.py:193-205 | Over the emit loop the codes only grow, and they stay well-formed: "scientific name" at 0, distinct, at most 255. |
| TaxDump.EmitByCode | obiTaxonomy.py:200-207 | Every taxon the loop writes has its classes in non-decreasing order of the codes the loop ends with. |
| TaxDump.FirstAppearance | obiTaxonomy.py:174-183 | The order in which the ids first appear in `names.dmp` lists every id once. A dictionary that keeps insertion order would use it. |
| TaxDump.Compile | obiTaxonomy.py:174-209 | `ParseTaxdumpFile` on the lines of the two files, for a given emit order. `TaxDump.CompileOk`, `TaxDump.CompileRecords` and `TaxDump.CompileByCode` state what it writes. |
| TaxDump.CompileOk | obiTaxonomy.py:174-191 | The compiler gets to write records exactly when every non-blank line of both dump files unpacks. |
| TaxDump.CompileRecords | obiTaxonomy.py:174-209 | Every taxon written is read off the dump files: its aliases from its names lines and its parent and rank from its last nodes line, names and classes aligned, each class in line order, the scientific name first. No id is written twice. This holds for every emit order. |
| TaxDump.CompiledTaxon | obiTaxonomy.py:200-209 | The i-th taxon written is read off the dump files and belongs to the i-th id of the emit order. |
| TaxDump.CompiledIds | obiTaxonomy.py:200 | The ids written are a prefix of the emit order, in that order. |
| TaxDump.CompileByCode | obiTaxonomy.py:193-207 | One code map serves every taxon written. It gives "scientific name" code 0 and distinct classes distinct codes, and under it every taxon's classes are in non-decreasing code order. |
| TaxDump.CompileComplete | obiTaxonomy.py:200-209 | A compilation that does not stop writes exactly the ids that have a names line. |
| TaxDump.CompileMissing | obiTaxonomy.py:201 | A compilation stops at a missing node only for an id with names lines and no nodes line. |
| Compiled.DumpFiles | obiTaxonomy.py:197-198 | A file created empty and written record by record holds the encoding of those records. |
| Compiled.CompiledStores | obiTaxonomy.py:197-209 | With lower-case marker-free ids, each compiled taxon is what a lookup of its id finds, in both files, for every emit order. |
| Compiled.CompiledName | obiTaxonomy.py:148-153 | On the compiled stores, `taxonomy[id]` returns the first name written for the taxon, which is its first scientific name when it has one. |
| Compiled.CompiledOtherNames | obiTaxonomy.py:155-162 | On the compiled stores, `other_names(id)` returns all the taxon's aliases but the first, each name with its own class, in the order written. |

## Left out

- File and network I/O. Reading a store's file, the file writes of `create`, `tarfile`/`urlopen` and the `Update` class are left out. A store is opened on its contents as a string (`TextDB.Open`), and a file is the string written into it.
- The `Taxonomy` shared-state singleton, `Load` with its download fallback, and the module-level wrappers `name`, `other_names` and `search`. They are wiring only.
- The `id()`-keyed memo of the lower-cased buffer. The model assumes the memo is never stale, and lower-cases the current buffer each time. In the source the memo is keyed by an object address. A new buffer that reuses the address of a collected one would be scanned through the old lowered copy. Object identity has no counterpart here.
- The progress callback and its milestones. They only observe the loop.
- The order of `namesDict.items()`, which is Python 2 hash order. `TaxDump.Compile` takes the order as a parameter, and every statement about its output holds for any order that lists every id once. The output does depend on the order. Class codes are handed out first come, first served while the taxa are emitted, so the order of a taxon's names of different classes can change with the order. Take taxon a with names of classes scientific, common name, synonym, and taxon b with a synonym and then a common name. Emitting b first gives "synonym" the smaller code, so a lists its synonym before its common name.
- The `StopIteration` of `iter(range(255)).next` for a 256th name class is modelled as the failure `TooManyClasses`, not as a Python exception.
- Exception classes other than the ones the core raises. `TextDB.Error` has `KeyError`, `ValueError`, `IndexError` and `NameError`, and the compiler's `TaxDump.Failure` names the failing line or id.
- The scans that never end (`TextDB.ScanNeverEnds`). For the empty pattern, and for a one-character pattern equal to the last byte of the buffer, `_find_all` restarts at `find(string, -1)` and yields the last byte forever. `search` then loops forever, unless an entry it meets has no separator: the unpacking at `obiTaxonomy.py:87` raises `ValueError` first. That happens for `search("")` on an empty store, where the entry is empty. `TextDB.FindAllFrom` requires `!ScanNeverEnds`, so these calls, including the ones that end in `ValueError`, are not modelled. The lemmas about search require a searchable pattern.
- Queries.SearchStore: stated for patterns that are non-empty and free of markers and of a lone newline (`Queries.Searchable`). Those are the patterns whose matches cannot straddle two records. Other patterns can match across a record boundary, where the model states nothing record by record.
- Lookup.KeyAtStart: stated for ids without marker characters (`Codec.MarkerFree`). The source takes any id. For the id `"a" + chr(253) + "b"`, the key pattern at `obiTaxonomy.py:77` matches at the start of a record `["a", "b", ...]`, and `get_entry` returns that record, where `Lookup.FindKey` answers nothing. An id holding a start or end marker can match across two records.
- Lookup.KeyScan: the same marker-free id assumption as `Lookup.KeyAtStart`.
- Lookup.LookUpStore: the same marker-free id assumption as `Lookup.KeyAtStart`.
- Lookup.GetItemStore: the same marker-free id assumption as `Lookup.KeyAtStart`.
- Lookup.GetItemSound: the same marker-free id assumption as `Lookup.KeyAtStart`.
- Lookup.GetEntryKeepsCache: the same marker-free id assumption as `Lookup.KeyAtStart`.
- Lookup.BodyKey: the same marker-free id assumption as `Lookup.KeyAtStart`.
- Taxonomy.NameStore: the same marker-free id assumption as `Lookup.KeyAtStart`.
- Taxonomy.NameSound: the same marker-free id assumption as `Lookup.KeyAtStart`.
- Taxonomy.OtherNamesStore: the same marker-free id assumption as `Lookup.KeyAtStart`.
- Taxonomy.KeepSound: the same marker-free id assumption as `Lookup.KeyAtStart`.
- Lookup.SetThenGet: assumes the id is lower-case, marker-free and not in the store yet, and that the fields are non-empty and marker-free. An existing earlier record for the id would still be the one found, and the cache is not invalidated by writes.
- Taxonomy.SearchSpeciesAll: stated for records with distinct ids (`Queries.DistinctIds`). When an id repeats, the search caches the body of the last matching record under it, and the filter reads that body for every report of the id. `Taxonomy.SearchSpecies` covers that case in one direction only.
- Taxonomy.SearchSpeciesOk: the same assumption as `Taxonomy.SearchSpeciesAll`.
- Compiled.CompiledName: assumes the ids in the dump are lower-case and no field holds a marker character (`Compiled.Clean`). Other dumps write stores where lookups can miss or find the wrong record.
- Compiled.CompiledOtherNames: the same assumption as `Compiled.CompiledName`.
- Lower-casing is ASCII only, as Python 2's `str.lower()` is on byte strings. No Unicode case folding is modelled.
- Integer widths play no part: offsets and codes are unbounded.

=== FILE: cache.dfy ===
/** The `cached` decorator of obiTaxonomy: a one-argument method whose results
    are memoised in the instance's own `_cache` dictionary. */
module Cache {
  import opened Wrappers

  /** Every cached value is what `compute` returns for its key. */
  ghost predicate Faithful<K, V, E>(cache: map<K, V>, compute: K -> Result<V, E>)
  {
    forall k :: k in cache ==> compute(k) == Ok(cache[k])
  }

  /** One call of the decorated method: the answer and the cache afterwards.
      A raised exception leaves the cache as it was. */
  function Cached<K, V, E>(cache: map<K, V>, arg: K, compute: K -> Result<V, E>): (out: (Result<V, E>, map<K, V>))
    ensures arg in cache ==> out == (Ok(cache[arg]), cache)
    ensures arg !in cache ==> out.0 == compute(arg)
    ensures out.0.Err? ==> out.1 == cache
    ensures cache.Keys <= out.1.Keys <= cache.Keys + {arg}
    ensures forall k :: k in cache ==> out.1[k] == cache[k]
    ensures out.0.Ok? ==> arg in out.1 && out.1[arg] == out.0.value
    ensures Faithful(cache, compute) ==> out.0 == compute(arg) && Faithful(out.1, compute)
  {
    if arg in cache then (Ok(cache[arg]), cache)
    else
      match compute(arg)
      case Ok(v) => (Ok(v), cache[arg := v])
      case Err(e) => (Err(e), cache)
  }

  /** Asking twice gives the same answer and leaves the cache where the first call left it. */
  lemma CachedRepeat<K, V, E>(cache: map<K, V>, arg: K, compute: K -> Result<V, E>)
    ensures Cached(Cached(cache, arg, compute).1, arg, compute) == Cached(cache, arg, compute)
  {
  }
}

=== FILE: codec.dfy ===
/** The record encoding of `TextDB`: one record is
    `chr(255) + chr(253).join(fields) + chr(254) + "\n"`, and a store is the
    concatenation of its records in insertion order. */
module Codec {
  import opened Strings

  /** `TextDB.entry_start_string`. */
  const START: char := '\U{FF}'
  /** `TextDB.entry_separator_string`. */
  const SEP: char := '\U{FD}'
  /** First character of `TextDB.entry_end_string`. */
  const ENDC: char := '\U{FE}'
  /** `TextDB.entry_end_string`. */
  const END: string := [ENDC, '\n']

  predicate IsMarker(c: char)
  {
    c == START || c == SEP || c == ENDC
  }

  /** Field text never holds a marker: the encoding's only invariant. */
  predicate MarkerFree(s: string)
  {
    forall i :: 0 <= i < |s| ==> !IsMarker(s[i])
  }

  predicate FieldsOk(fields: seq<string>)
  {
    forall k :: 0 <= k < |fields| ==> MarkerFree(fields[k])
  }

  predicate RecordsOk(rs: seq<seq<string>>)
  {
    forall k :: 0 <= k < |rs| ==> FieldsOk(rs[k])
  }

  /** The text between a record's start and end markers. */
  function Body(fields: seq<string>): string
  {
    Join(fields, [SEP])
  }

  /** A record with no content: no fields, or one empty field. */
  predicate Blank(fields: seq<string>)
  {
    fields == [] || fields == [[]]
  }

  /** A body is empty exactly for a blank record. */
  lemma BodyEmpty(fields: seq<string>)
    ensures Body(fields) == [] <==> Blank(fields)
  {
    if |fields| >= 2 {
      BodySplit(fields);
    }
  }

  /** The bytes `insert` appends for one record. */
  function Encode(fields: seq<string>): string
  {
    [START] + Body(fields) + END
  }

  /** `entry.split(chr(253))`: pieces that join back into the entry. */
  function Decode(body: string): (fields: seq<string>)
    ensures |fields| >= 1 && Join(fields, [SEP]) == body
  {
    JoinSplit(body, [SEP]);
    Split(body, [SEP])
  }

  /** The store holding `rs`, written in order. */
  function Buffer(rs: seq<seq<string>>): string
    decreases |rs|
  {
    if rs == [] then [] else Buffer(rs[..|rs| - 1]) + Encode(rs[|rs| - 1])
  }

  /** Where record `k` starts. */
  function Offset(rs: seq<seq<string>>, k: nat): nat
    requires k <= |rs|
  {
    |Buffer(rs[..k])|
  }

  /** Where record `k`'s end marker sits. */
  function EndPos(rs: seq<seq<string>>, k: nat): nat
    requires k < |rs|
  {
    Offset(rs, k) + 1 + |Body(rs[k])|
  }

  /** Decoding a body gives back the fields of every non-empty, marker-free record. */
  lemma DecodeBody(fields: seq<string>)
    requires |fields| >= 1 && FieldsOk(fields)
    ensures Decode(Body(fields)) == fields
  {
    forall k | 0 <= k < |fields|
      ensures Lacks(fields[k], [SEP][0])
    {
      assert MarkerFree(fields[k]);
    }
    SplitJoin(fields, [SEP]);
  }

  /** A body holds separators but never a start or end marker. */
  lemma {:induction false} BodyChars(fields: seq<string>)
    requires FieldsOk(fields)
    ensures forall i :: 0 <= i < |Body(fields)| ==> Body(fields)[i] != START && Body(fields)[i] != ENDC
    decreases |fields|
  {
    if |fields| > 1 {
      BodyChars(fields[1..]);
      assert Body(fields) == fields[0] + [SEP] + Body(fields[1..]);
      assert MarkerFree(fields[0]);
    } else if |fields| == 1 {
      assert MarkerFree(fields[0]);
    }
  }

  /** The body of a record with an id and more fields starts with the id and a separator. */
  lemma BodySplit(fields: seq<string>)
    requires |fields| >= 2
    ensures Body(fields) == fields[0] + [SEP] + Body(fields[1..])
  {
  }

  /** The id `split(chr(253), 1)` reads off a body is the record's first field;
      the split finds a separator exactly when the record has two fields or more. */
  lemma FirstFieldOfBody(fields: seq<string>)
    requires FieldsOk(fields)
    ensures |fields| >= 1 ==> SplitOnce(Body(fields), [SEP])[0] == fields[0]
    ensures |SplitOnce(Body(fields), [SEP])| == 2 <==> |fields| >= 2
  {
    if |fields| == 0 {
      NoMatchInPiece([], [SEP]);
    } else {
      assert MarkerFree(fields[0]);
      assert Lacks(fields[0], [SEP][0]);
      if |fields| >= 2 {
        BodySplit(fields);
        FindAfterPiece(fields[0], [SEP], Body(fields[1..]));
        assert Body(fields)[..|fields[0]|] == fields[0];
      } else {
        NoMatchInPiece(fields[0], [SEP]);
      }
    }
  }

  /** The body's bytes, as a slice of the store. */
  lemma BodySlice(rs: seq<seq<string>>, k: nat)
    requires k < |rs|
    ensures EndPos(rs, k) < |Buffer(rs)|
    ensures Buffer(rs)[Offset(rs, k) + 1..EndPos(rs, k)] == Body(rs[k])
  {
    Layout(rs, k);
    var e := Encode(rs[k]);
    assert e[1..1 + |Body(rs[k])|] == Body(rs[k]);
    SubSlice(Buffer(rs), Offset(rs, k), Offset(rs, k + 1), e, 1, 1 + |Body(rs[k])|);
  }

  /** A non-empty store ends with a newline. */
  lemma BufferLastByte(rs: seq<seq<string>>)
    requires |Buffer(rs)| > 0
    ensures Buffer(rs)[|Buffer(rs)| - 1] == '\n'
  {
    assert rs != [];
    RecordChars(rs, |rs| - 1);
    OffsetEnd(rs);
  }

  lemma {:induction false} BufferAppend(a: seq<seq<string>>, b: seq<seq<string>>)
    ensures Buffer(a + b) == Buffer(a) + Buffer(b)
    decreases |b|
  {
    if b != [] {
      var b' := b[..|b| - 1];
      assert (a + b)[..|a + b| - 1] == a + b';
      BufferAppend(a, b');
    } else {
      assert a + b == a;
    }
  }

  lemma OffsetEnd(rs: seq<seq<string>>)
    ensures Offset(rs, |rs|) == |Buffer(rs)|
  {
    assert rs[..|rs|] == rs;
  }

  /** Record `k` occupies `[Offset(k), Offset(k+1))` and holds exactly its encoding. */
  lemma Layout(rs: seq<seq<string>>, k: nat)
    requires k < |rs|
    ensures Offset(rs, k + 1) == EndPos(rs, k) + 2 <= |Buffer(rs)|
    ensures Buffer(rs)[Offset(rs, k)..Offset(rs, k + 1)] == Encode(rs[k])
  {
    var pre := rs[..k + 1];
    assert pre[..|pre| - 1] == rs[..k];
    assert Buffer(pre) == Buffer(rs[..k]) + Encode(rs[k]);
    assert rs == pre + rs[k + 1..];
    BufferAppend(pre, rs[k + 1..]);
  }

  /** The marker bytes of one encoded record. */
  lemma EncodeEnds(fields: seq<string>)
    ensures |Encode(fields)| == |Body(fields)| + 3
    ensures Encode(fields)[0] == START
    ensures Encode(fields)[1 + |Body(fields)|] == ENDC
    ensures Encode(fields)[2 + |Body(fields)|] == '\n'
  {
  }

  /** The marker bytes around record `k`. */
  lemma RecordChars(rs: seq<seq<string>>, k: nat)
    requires k < |rs|
    ensures Offset(rs, k + 1) == EndPos(rs, k) + 2 <= |Buffer(rs)|
    ensures Buffer(rs)[Offset(rs, k)] == START
    ensures Buffer(rs)[EndPos(rs, k)] == ENDC
    ensures Buffer(rs)[EndPos(rs, k) + 1] == '\n'
  {
    Layout(rs, k);
    EncodeEnds(rs[k]);
    var t, o, o1, e := Buffer(rs), Offset(rs, k), Offset(rs, k + 1), Encode(rs[k]);
    var n := |Body(rs[k])|;
    SliceChars(t, o, o1, e);
    assert t[o] == e[0];
    assert t[o + 1 + n] == e[1 + n];
    assert t[o + 2 + n] == e[2 + n];
  }

  /** Within one encoded record, only the first byte is a start marker and
      the end marker is the first `ENDC`. */
  lemma EncodeChars(fields: seq<string>)
    requires FieldsOk(fields)
    ensures Encode(fields)[0] == START
    ensures forall i :: 0 < i < |Encode(fields)| ==> Encode(fields)[i] != START
    ensures forall i :: 0 <= i < 1 + |Body(fields)| ==> Encode(fields)[i] != ENDC
    ensures Encode(fields)[1 + |Body(fields)|] == ENDC
    ensures Encode(fields)[2 + |Body(fields)|] == '\n'
  {
    BodyChars(fields);
    var e := Encode(fields);
    var b := Body(fields);
    forall i | 0 < i < 1 + |b|
      ensures e[i] == b[i - 1]
    {
    }
  }

  /** Inside a well-formed record, only its first byte is a start marker and
      no end marker comes before `EndPos`. */
  lemma RecordInterior(rs: seq<seq<string>>, k: nat)
    requires RecordsOk(rs) && k < |rs|
    ensures Offset(rs, k + 1) == EndPos(rs, k) + 2 <= |Buffer(rs)|
    ensures Buffer(rs)[Offset(rs, k)] == START
    ensures forall j :: Offset(rs, k) < j < Offset(rs, k + 1) ==> Buffer(rs)[j] != START
    ensures forall j :: Offset(rs, k) <= j < EndPos(rs, k) ==> Buffer(rs)[j] != ENDC
    ensures Buffer(rs)[EndPos(rs, k)] == ENDC
    ensures Buffer(rs)[EndPos(rs, k) + 1] == '\n'
  {
    Layout(rs, k);
    assert FieldsOk(rs[k]);
    EncodeChars(rs[k]);
    SliceChars(Buffer(rs), Offset(rs, k), Offset(rs, k + 1), Encode(rs[k]));
  }

  lemma {:induction false} OffsetMono(rs: seq<seq<string>>, j: nat, k: nat)
    requires j < k <= |rs|
    ensures Offset(rs, j) < Offset(rs, k)
    decreases k - j
  {
    Layout(rs, j);
    if j + 1 < k {
      OffsetMono(rs, j + 1, k);
    }
  }

  /** Lower-casing every field of every record. */
  function LowerRecords(rs: seq<seq<string>>): (lr: seq<seq<string>>)
    ensures |lr| == |rs|
    ensures forall k :: 0 <= k < |rs| ==> |lr[k]| == |rs[k]|
    ensures forall k, j :: 0 <= k < |rs| && 0 <= j < |rs[k]| ==> lr[k][j] == Lower(rs[k][j])
  {
    seq(|rs|, k requires 0 <= k < |rs| => seq(|rs[k]|, j requires 0 <= j < |rs[k]| => Lower(rs[k][j])))
  }

  lemma {:induction false} LowerBody(fields: seq<string>)
    ensures Lower(Body(fields)) == Body(LowerRecords([fields])[0])
    decreases |fields|
  {
    var lf := LowerRecords([fields])[0];
    if |fields| > 1 {
      LowerBody(fields[1..]);
      assert LowerRecords([fields[1..]])[0] == lf[1..];
      LowerAppend(fields[0] + [SEP], Body(fields[1..]));
      LowerAppend(fields[0], [SEP]);
    }
  }

  /** Lower-casing a store is the store of the lower-cased records: same layout, same offsets. */
  lemma {:induction false} LowerBuffer(rs: seq<seq<string>>)
    ensures Lower(Buffer(rs)) == Buffer(LowerRecords(rs))
    decreases |rs|
  {
    if rs != [] {
      var n := |rs| - 1;
      var lr := LowerRecords(rs);
      LowerBuffer(rs[..n]);
      assert LowerRecords(rs[..n]) == lr[..n];
      assert lr[n] == LowerRecords([rs[n]])[0];
      LowerBody(rs[n]);
      LowerAppend(Buffer(rs[..n]), Encode(rs[n]));
      LowerAppend([START] + Body(rs[n]), END);
      LowerAppend([START], Body(rs[n]));
    }
  }

  /** Lower-casing keeps every record well formed and every offset in place. */
  lemma LowerRecordsLayout(rs: seq<seq<string>>)
    requires RecordsOk(rs)
    ensures RecordsOk(LowerRecords(rs))
    ensures forall k :: 0 <= k <= |rs| ==> Offset(LowerRecords(rs), k) == Offset(rs, k)
    ensures forall k :: 0 <= k < |rs| ==> Body(LowerRecords(rs)[k]) == Lower(Body(rs[k]))
  {
    var lr := LowerRecords(rs);
    forall k, j | 0 <= k < |rs| && 0 <= j < |rs[k]|
      ensures MarkerFree(lr[k][j])
    {
      assert FieldsOk(rs[k]);
      assert MarkerFree(rs[k][j]);
    }
    forall k | 0 <= k <= |rs|
      ensures Offset(lr, k) == Offset(rs, k)
    {
      assert LowerRecords(rs[..k]) == lr[..k];
      LowerBuffer(rs[..k]);
    }
    forall k | 0 <= k < |rs|
      ensures Body(lr[k]) == Lower(Body(rs[k]))
    {
      assert LowerRecords([rs[k]])[0] == lr[k];
      LowerBody(rs[k]);
    }
  }
}

=== FILE: compiled.dfy ===
/** The two stores `ParseTaxdumpFile` writes, read back through `Taxonomy`:
    the name of a taxon is its scientific name, and its other names come
    back paired with their classes. */
module Compiled {
  import opened Wrappers
  import opened Strings
  import opened Codec
  import opened TextDB
  import opened Lookup
  import Taxonomy
  import TaxDump

  /** Writing records one by one into a freshly created file gives the
      encoding of those records. */
  lemma DumpFiles(rs: seq<seq<string>>)
    ensures WriteAll(Create(Empty()), rs) == Buffer(rs)
  {
    CreateThenWrite([], map[], rs);
    assert [] + rs == rs;
  }

  /** The stores opened on the two files a compilation wrote. */
  function Opened(taxa: seq<TaxDump.Taxon>): (t: Taxonomy.Stores)
    ensures t.text == DB(Buffer(TaxDump.DataRecords(taxa)), map[])
    ensures t.info == DB(Buffer(TaxDump.InfoRecords(taxa)), map[])
  {
    DumpFiles(TaxDump.DataRecords(taxa));
    DumpFiles(TaxDump.InfoRecords(taxa));
    Taxonomy.Stores(Open(WriteAll(Create(Empty()), TaxDump.DataRecords(taxa))),
                    Open(WriteAll(Create(Empty()), TaxDump.InfoRecords(taxa))))
  }

  /** Ids without upper-case letters, and no marker character in any field:
      what the dump files must satisfy for lookups to find their taxa. */
  ghost predicate Clean(taxa: seq<TaxDump.Taxon>)
  {
    && RecordsOk(TaxDump.DataRecords(taxa)) && RecordsOk(TaxDump.InfoRecords(taxa))
    && forall j :: 0 <= j < |taxa| && |taxa[j].data| >= 1 ==> IsLowerCase(taxa[j].data[0])
  }

  /** In a list of records with distinct lower-case ids, a lookup of the
      id of record `i` finds record `i`. */
  lemma FindDistinct(rs: seq<seq<string>>, i: nat)
    requires i < |rs| && |rs[i]| >= 2
    requires forall j :: 0 <= j < |rs| ==> |rs[j]| >= 1 && IsLowerCase(rs[j][0])
    requires forall j :: 0 <= j < |rs| && j != i ==> rs[j][0] != rs[i][0]
    ensures FindKey(rs, rs[i][0], 0) == Some(i)
  {
    LowerIsLowerCase(rs[i][0]);
    forall j | 0 <= j < i
      ensures !IsKeyOf(rs[j], rs[i][0])
    {
      LowerIsLowerCase(rs[j][0]);
    }
  }

  /** Both files list the compiled taxa in the same order, each id once,
      whatever the emit order. */
  lemma CompiledStores(names: seq<string>, nodes: seq<string>, order: seq<string>, i: nat)
    requires TaxDump.EmitOrder(names, order) && TaxDump.Compile(names, nodes, order).Ok?
    requires i < |TaxDump.Compile(names, nodes, order).value.taxa|
    requires Clean(TaxDump.Compile(names, nodes, order).value.taxa)
    ensures var taxa := TaxDump.Compile(names, nodes, order).value.taxa;
      && TaxDump.FromDump(names, nodes, taxa[i])
      && FindKey(TaxDump.DataRecords(taxa), taxa[i].data[0], 0) == Some(i)
      && FindKey(TaxDump.InfoRecords(taxa), taxa[i].data[0], 0) == Some(i)
  {
    var taxa := TaxDump.Compile(names, nodes, order).value.taxa;
    TaxDump.CompileRecords(names, nodes, order);
    forall j | 0 <= j < |taxa|
      ensures |taxa[j].data| >= 4 && |taxa[j].info| >= 2 && taxa[j].info[0] == taxa[j].data[0]
    {
      HeaderIds(names, nodes, taxa[j]);
    }
    DistinctStores(taxa, i);
  }

  /** Taxa with distinct lower-case ids are found at their own place in
      both files. */
  lemma DistinctStores(taxa: seq<TaxDump.Taxon>, i: nat)
    requires i < |taxa| && Clean(taxa)
    requires forall j :: 0 <= j < |taxa| ==> |taxa[j].data| >= 4 && |taxa[j].info| >= 2 && taxa[j].info[0] == taxa[j].data[0]
    requires TaxDump.Distinct(TaxDump.Ids(taxa))
    ensures FindKey(TaxDump.DataRecords(taxa), taxa[i].data[0], 0) == Some(i)
    ensures FindKey(TaxDump.InfoRecords(taxa), taxa[i].data[0], 0) == Some(i)
  {
    var rs := TaxDump.DataRecords(taxa);
    var cs := TaxDump.InfoRecords(taxa);
    var ids := TaxDump.Ids(taxa);
    forall j | 0 <= j < |taxa| && j != i
      ensures rs[j][0] != rs[i][0]
    {
      if j < i {
        assert ids[j] != ids[i];
      } else {
        assert ids[i] != ids[j];
      }
    }
    FindDistinct(rs, i);
    FindDistinct(cs, i);
  }

  /** A taxon read off the dump files has an id and at least one alias. */
  lemma HeaderIds(names: seq<string>, nodes: seq<string>, t: TaxDump.Taxon)
    requires TaxDump.FromDump(names, nodes, t)
    ensures |t.data| >= 4 && |t.info| >= 2 && t.info[0] == t.data[0]
  {
  }

  /** `taxonomy[id]` on the compiled stores gives the first name written
      for the taxon, which is its first scientific name when it has one. */
  lemma CompiledName(names: seq<string>, nodes: seq<string>, order: seq<string>, i: nat)
    requires TaxDump.EmitOrder(names, order) && TaxDump.Compile(names, nodes, order).Ok?
    requires i < |TaxDump.Compile(names, nodes, order).value.taxa|
    requires Clean(TaxDump.Compile(names, nodes, order).value.taxa)
    ensures var t := TaxDump.Compile(names, nodes, order).value.taxa[i];
      |t.data| >= 4 && TaxDump.AliasesOf(names, t.data[0]) != []
    ensures var t := TaxDump.Compile(names, nodes, order).value.taxa[i];
      Taxonomy.Name(Opened(TaxDump.Compile(names, nodes, order).value.taxa), t.data[0]).0 == Ok(t.data[3])
    ensures var t := TaxDump.Compile(names, nodes, order).value.taxa[i];
      var firsts := TaxDump.OfKind(TaxDump.AliasesOf(names, t.data[0]), TaxDump.Scientific);
      |firsts| > 0 ==> t.data[3] == firsts[0].text
  {
    var taxa := TaxDump.Compile(names, nodes, order).value.taxa;
    CompiledStores(names, nodes, order, i);
    var rs := TaxDump.DataRecords(taxa);
    var t := Opened(taxa);
    assert MarkerFree(rs[i][0]);
    Taxonomy.NameStore(rs, t.info, map[], taxa[i].data[0]);
  }

  /** `other_names(id)` on the compiled stores pairs every name after the
      first with its class, in the order written: all the taxon's aliases
      but the first. */
  lemma CompiledOtherNames(names: seq<string>, nodes: seq<string>, order: seq<string>, i: nat)
    requires TaxDump.EmitOrder(names, order) && TaxDump.Compile(names, nodes, order).Ok?
    requires i < |TaxDump.Compile(names, nodes, order).value.taxa|
    requires Clean(TaxDump.Compile(names, nodes, order).value.taxa)
    ensures var t := TaxDump.Compile(names, nodes, order).value.taxa[i];
      |t.data| >= 1 && |t.info| >= 2 && |t.data| == |t.info| + 2
    ensures var t := TaxDump.Compile(names, nodes, order).value.taxa[i];
      var out := Taxonomy.OtherNames(Opened(TaxDump.Compile(names, nodes, order).value.taxa), t.data[0]).0;
      && out.Ok?
      && |out.value| == |t.info| - 2
      && forall k :: 0 <= k < |out.value| ==>
           out.value[k] == (TaxDump.Paired(t)[k + 1].text, TaxDump.Paired(t)[k + 1].kind)
  {
    var taxa := TaxDump.Compile(names, nodes, order).value.taxa;
    CompiledStores(names, nodes, order, i);
    var rs := TaxDump.DataRecords(taxa);
    var cs := TaxDump.InfoRecords(taxa);
    assert MarkerFree(rs[i][0]);
    Taxonomy.OtherNamesStore(rs, cs, map[], map[], taxa[i].data[0]);
    var out := Taxonomy.OtherNames(Opened(taxa), taxa[i].data[0]).0;
    PairsOfTaxon(out.value, taxa[i]);
  }

  /** The pairs `other_names` reads off a taxon's two records are its
      aliases after the first. */
  lemma PairsOfTaxon(pairs: seq<(string, string)>, t: TaxDump.Taxon)
    requires |t.info| >= 2 && |t.data| == |t.info| + 2
    requires Taxonomy.OtherPairs(pairs, t.data, t.info)
    ensures |pairs| == |t.info| - 2
    ensures forall k :: 0 <= k < |pairs| ==> pairs[k] == (TaxDump.Paired(t)[k + 1].text, TaxDump.Paired(t)[k + 1].kind)
  {
  }
}

=== FILE: lookup.dfy ===
/** Lookup by id over a well-formed store: `get_entry`, `db[id]`, the
    cache they share with `search`, and the `db[id] = fields` round trip. */
module Lookup {
  import opened Wrappers
  import opened Strings
  import opened Codec
  import opened TextDB
  import opened Records
  import opened Queries

  /** The record answers a lookup of `id`: it has an id and at least one more
      field, and its id lower-cases to `id`. */
  predicate IsKeyOf(fields: seq<string>, id: string)
  {
    |fields| >= 2 && Lower(fields[0]) == id
  }

  /** The first record from `k` on that answers a lookup of `id`. */
  function FindKey(rs: seq<seq<string>>, id: string, k: nat): (r: Option<nat>)
    requires k <= |rs|
    ensures r.Some? ==> k <= r.value < |rs| && IsKeyOf(rs[r.value], id)
    ensures forall j :: k <= j < |rs| && (r.None? || j < r.value) ==> !IsKeyOf(rs[j], id)
    decreases |rs| - k
  {
    if k == |rs| then None
    else if IsKeyOf(rs[k], id) then Some(k)
    else FindKey(rs, id, k + 1)
  }

  /** A body starts with `id` followed by a separator. */
  predicate PrefixKey(b: string, id: string)
  {
    |id| < |b| && b[..|id|] == id && b[|id|] == SEP
  }

  /** The body of a record starts with `id` and a separator exactly when the
      record's first field is `id` and a second field follows. */
  lemma BodyKey(fields: seq<string>, id: string)
    requires FieldsOk(fields) && MarkerFree(id)
    ensures PrefixKey(Body(fields), id) <==> |fields| >= 2 && fields[0] == id
  {
    var b := Body(fields);
    if |fields| == 1 {
      assert MarkerFree(fields[0]);
      if |id| < |b| {
        assert b[|id|] != SEP;
      }
    } else if |fields| >= 2 {
      var f := fields[0];
      assert MarkerFree(f);
      BodySplit(fields);
      if |f| < |id| && |id| < |b| {
        assert b[..|id|][|f|] == SEP && id[|f|] != SEP;
      } else if |f| > |id| {
        assert b[|id|] == f[|id|] != SEP;
      } else if |f| == |id| {
        assert b[..|id|] == f;
      }
    }
  }

  /** Over any text holding a start marker at `o`, body `b` and an end marker
      at `e`, the key pattern of a marker-free id matches at `o` exactly when
      the body starts with the id and a separator. */
  lemma KeyBetween(t: string, o: nat, e: nat, b: string, id: string)
    requires o < e < |t| && t[o] == START && t[e] == ENDC && t[o + 1..e] == b
    requires MarkerFree(id)
    ensures MatchAt(t, KeyPattern(id), o) <==> PrefixKey(b, id)
  {
    if PrefixKey(b, id) {
      KeyBetweenIf(t, o, e, b, id);
    }
    if MatchAt(t, KeyPattern(id), o) {
      KeyBetweenOnlyIf(t, o, e, b, id);
    }
  }

  /** A body that starts with the id and a separator gives a key match. */
  lemma KeyBetweenIf(t: string, o: nat, e: nat, b: string, id: string)
    requires o < e < |t| && t[o] == START && t[o + 1..e] == b
    requires PrefixKey(b, id)
    ensures MatchAt(t, KeyPattern(id), o)
  {
    var kp := KeyPattern(id);
    SliceChars(t, o + 1, e, b);
    assert forall m :: 0 <= m < |id| ==> kp[1 + m] == id[m];
    forall j | o <= j < o + |kp|
      ensures t[j] == kp[j - o]
    {
      if o < j < o + 1 + |id| {
        assert b[..|id|][j - o - 1] == b[j - o - 1];
      }
    }
    MatchAtChars(t, kp, o);
  }

  /** A key match gives a body that starts with the id and a separator. */
  lemma KeyBetweenOnlyIf(t: string, o: nat, e: nat, b: string, id: string)
    requires o < e < |t| && t[e] == ENDC && t[o + 1..e] == b
    requires MarkerFree(id)
    requires MatchAt(t, KeyPattern(id), o)
    ensures PrefixKey(b, id)
  {
    var kp := KeyPattern(id);
    MatchAtChars(t, kp, o);
    SliceChars(t, o + 1, e, b);
    if o + |id| + 2 > e {
      assert false;
    }
    assert forall m :: 0 <= m < |id| ==> kp[1 + m] == id[m];
    assert b[..|id|] == id;
  }

  /** The body's slice of the store starts with a key exactly when the body does. */
  lemma BodyPrefixKey(rs: seq<seq<string>>, k: nat, id: string)
    requires k < |rs|
    ensures EndPos(rs, k) < |Buffer(rs)|
    ensures PrefixKey(Buffer(rs)[Offset(rs, k) + 1..EndPos(rs, k)], id) <==> PrefixKey(Body(rs[k]), id)
  {
    BodySlice(rs, k);
  }

  /** The key pattern matches at record `k`'s start exactly when the record
      has the id as its first field and a second field. */
  lemma KeyAtStart(rs: seq<seq<string>>, k: nat, id: string)
    requires RecordsOk(rs) && k < |rs| && MarkerFree(id)
    ensures MatchAt(Buffer(rs), KeyPattern(id), Offset(rs, k)) <==> |rs[k]| >= 2 && rs[k][0] == id
  {
    RecordFrame(rs, k);
    KeyBetween(Buffer(rs), Offset(rs, k), EndPos(rs, k), Buffer(rs)[Offset(rs, k) + 1..EndPos(rs, k)], id);
    BodyPrefixKey(rs, k, id);
    assert FieldsOk(rs[k]);
    BodyKey(rs[k], id);
  }

  /** The key pattern never matches past a record's start marker before the next record. */
  lemma KeyNotInside(rs: seq<seq<string>>, k: nat, id: string, j: nat)
    requires RecordsOk(rs) && k < |rs|
    requires Offset(rs, k) < j < Offset(rs, k + 1)
    ensures !MatchAt(Buffer(rs), KeyPattern(id), j)
  {
    RecordInterior(rs, k);
    MatchAtFirst(Buffer(rs), KeyPattern(id), j);
  }

  /** Record `k` of the lower-cased records answers exactly when the original does. */
  lemma LoweredKey(rs: seq<seq<string>>, k: nat, id: string)
    requires k < |rs|
    ensures (|LowerRecords(rs)[k]| >= 2 && LowerRecords(rs)[k][0] == id) <==> IsKeyOf(rs[k], id)
  {
  }

  /** The first hit of the key pattern in the lower-cased store, from record
      `k` on, is the start of the first record that answers, if any. */
  lemma {:induction false} KeyScan(rs: seq<seq<string>>, id: string, k: nat)
    requires RecordsOk(rs) && k <= |rs| && MarkerFree(id)
    ensures Find(Buffer(LowerRecords(rs)), KeyPattern(id), Offset(LowerRecords(rs), k)) ==
      match FindKey(rs, id, k) case None => -1 case Some(j) => Offset(LowerRecords(rs), j)
    decreases |rs| - k
  {
    var lr := LowerRecords(rs);
    LowerRecordsLayout(rs);
    if k == |rs| {
      OffsetEnd(lr);
      FindNone(Buffer(lr), KeyPattern(id), Offset(lr, k));
    } else {
      KeyAtStart(lr, k, id);
      LoweredKey(rs, k, id);
      if IsKeyOf(rs[k], id) {
        FindIs(Buffer(lr), KeyPattern(id), Offset(lr, k), Offset(lr, k));
      } else {
        KeyScan(rs, id, k + 1);
        forall j | Offset(lr, k) <= j < Offset(lr, k + 1)
          ensures !MatchAt(Buffer(lr), KeyPattern(id), j)
        {
          if j > Offset(lr, k) {
            KeyNotInside(lr, k, id, j);
          }
        }
        Layout(lr, k);
        FindSkip(Buffer(lr), KeyPattern(id), Offset(lr, k), Offset(lr, k + 1));
      }
    }
  }

  /** `get_entry` without the cache, on a well-formed store and a marker-free
      id: the body of the first record whose id lower-cases to `id`, or
      `KeyError` when there is none. */
  lemma LookUpStore(rs: seq<seq<string>>, id: string)
    requires RecordsOk(rs) && MarkerFree(id)
    ensures LookUp(Buffer(rs), id) ==
      match FindKey(rs, id, 0) case None => Err(KeyError(id)) case Some(k) => Ok(Body(rs[k]))
  {
    var lr := LowerRecords(rs);
    LowerBuffer(rs);
    LowerRecordsLayout(rs);
    KeyScan(rs, id, 0);
    match FindKey(rs, id, 0)
    case None =>
    case Some(k) =>
      Layout(rs, k);
      EntryAt(rs, k, Offset(rs, k));
  }

  /** An id with an upper-case letter is never found by a lookup that misses
      the cache, whatever the buffer holds: the buffer is lower-cased before
      the scan, the key pattern is not. */
  lemma LookUpUpper(text: string, id: string)
    requires !IsLowerCase(id)
    ensures LookUp(text, id) == Err(KeyError(id))
  {
    var i :| 0 <= i < |id| && IsUpper(id[i]);
    LowerIsLowerCase(text);
    forall j | 0 <= j
      ensures !MatchAt(Lower(text), KeyPattern(id), j)
    {
      MatchAtChars(Lower(text), KeyPattern(id), j);
      if j + |KeyPattern(id)| <= |text| {
        assert KeyPattern(id)[1 + i] == id[i];
        assert !IsUpper(Lower(text)[j + 1 + i]);
      }
    }
  }

  /** `db[id]` on a well-formed store when `id` is not cached: the fields
      after the id of the first record answering the lookup, or `KeyError`. */
  lemma GetItemStore(rs: seq<seq<string>>, cache: map<string, string>, id: string)
    requires RecordsOk(rs) && MarkerFree(id) && id !in cache
    ensures GetItem(DB(Buffer(rs), cache), id).0 ==
      match FindKey(rs, id, 0) case None => Err(KeyError(id)) case Some(k) => Ok(rs[k][1..])
  {
    LookUpStore(rs, id);
    match FindKey(rs, id, 0)
    case None =>
    case Some(k) =>
      assert FieldsOk(rs[k]);
      DecodeBody(rs[k]);
  }

  /** The cache only holds what a lookup or a search stores: under every
      cached id, the body of a record that has a second field and whose id
      equals the cached id up to case. */
  ghost predicate CacheSound(rs: seq<seq<string>>, cache: map<string, string>)
  {
    forall id :: id in cache ==>
      exists k :: 0 <= k < |rs| && |rs[k]| >= 2 && Lower(rs[k][0]) == Lower(id) && cache[id] == Body(rs[k])
  }

  /** Every answer `db[id]` gives on a well-formed store with a sound cache,
      cached or not, is the fields after the id of a record whose id equals
      `id` up to case. */
  lemma GetItemSound(rs: seq<seq<string>>, cache: map<string, string>, id: string)
    requires RecordsOk(rs) && MarkerFree(id) && CacheSound(rs, cache)
    ensures var r := GetItem(DB(Buffer(rs), cache), id).0;
      r.Ok? ==> exists k :: 0 <= k < |rs| && |rs[k]| >= 2 && Lower(rs[k][0]) == Lower(id) && r.value == rs[k][1..]
  {
    if id in cache {
      var k :| 0 <= k < |rs| && |rs[k]| >= 2 && Lower(rs[k][0]) == Lower(id) && cache[id] == Body(rs[k]);
      assert FieldsOk(rs[k]);
      DecodeBody(rs[k]);
    } else {
      GetItemStore(rs, cache, id);
      match FindKey(rs, id, 0)
      case None =>
      case Some(k) =>
        LowerIsLowerCase(rs[k][0]);
        LowerIsLowerCase(id);
    }
  }

  /** A lookup keeps the cache sound. */
  lemma GetEntryKeepsCache(rs: seq<seq<string>>, cache: map<string, string>, id: string)
    requires RecordsOk(rs) && MarkerFree(id) && CacheSound(rs, cache)
    ensures CacheSound(rs, GetEntry(DB(Buffer(rs), cache), id).1.cache)
  {
    if id !in cache {
      LookUpStore(rs, id);
      match FindKey(rs, id, 0)
      case None =>
      case Some(k) =>
        LowerIsLowerCase(rs[k][0]);
        LowerIsLowerCase(id);
    }
  }

  /** One record of `SearchRecords` keeps the cache sound. */
  lemma {:induction false} SearchKeepsCache(rs: seq<seq<string>>, p: string, k: nat, cache: map<string, string>)
    requires k <= |rs| && CacheSound(rs, cache)
    ensures CacheSound(rs, SearchRecords(rs[k..], p, cache).1)
    decreases |rs| - k
  {
    if k < |rs| {
      if Occurs(Lower(Body(rs[k])), p) {
        SearchCons(rs, p, k, cache);
        if |rs[k]| >= 2 {
          var c := cache[rs[k][0] := Body(rs[k])];
          assert CacheSound(rs, c);
          SearchKeepsCache(rs, p, k + 1, c);
        }
      } else {
        SearchSkip(rs, p, k, cache);
        SearchKeepsCache(rs, p, k + 1, cache);
      }
    }
  }

  /** `search` keeps the cache sound. */
  lemma SearchKeepsSound(rs: seq<seq<string>>, s: string, cache: map<string, string>)
    requires RecordsOk(rs) && Searchable(s) && CacheSound(rs, cache)
    ensures !ScanNeverEnds(Lower(Buffer(rs)), Lower(s), true)
    ensures CacheSound(rs, Search(DB(Buffer(rs), cache), s).1.cache)
  {
    SearchStore(rs, s, cache);
    SearchKeepsCache(rs, Lower(s), 0, cache);
    assert rs[0..] == rs;
  }

  /** `insert` appends one record to the store and leaves the cache alone. */
  lemma InsertRecord(rs: seq<seq<string>>, cache: map<string, string>, fields: seq<string>)
    ensures Insert(DB(Buffer(rs), cache), fields) == DB(Buffer(rs + [fields]), cache)
  {
    assert (rs + [fields])[..|rs|] == rs;
  }

  /** An insert keeps the cache sound: no record is lost. */
  lemma InsertKeepsCache(rs: seq<seq<string>>, cache: map<string, string>, fields: seq<string>)
    requires CacheSound(rs, cache)
    ensures CacheSound(rs + [fields], cache)
  {
    forall id | id in cache
      ensures exists k :: (0 <= k < |rs + [fields]| && |(rs + [fields])[k]| >= 2 &&
                           Lower((rs + [fields])[k][0]) == Lower(id) && cache[id] == Body((rs + [fields])[k]))
    {
      var k :| 0 <= k < |rs| && |rs[k]| >= 2 && Lower(rs[k][0]) == Lower(id) && cache[id] == Body(rs[k]);
      assert (rs + [fields])[k] == rs[k];
    }
  }

  /** Appending a record changes the first answering record only when none answered before. */
  lemma {:induction false} FindKeyAppend(rs: seq<seq<string>>, fields: seq<string>, id: string, k: nat)
    requires k <= |rs|
    ensures FindKey(rs + [fields], id, k) ==
      if FindKey(rs, id, k).Some? then FindKey(rs, id, k)
      else if IsKeyOf(fields, id) then Some(|rs|) else None
    decreases |rs| - k
  {
    var rs' := rs + [fields];
    if k < |rs| {
      assert rs'[k] == rs[k];
      FindKeyAppend(rs, fields, id, k + 1);
    } else {
      assert rs'[k] == fields;
      assert FindKey(rs', id, k + 1) == None;
    }
  }

  /** A sound cache never holds an id no record answers. */
  lemma NotCached(rs: seq<seq<string>>, cache: map<string, string>, id: string)
    requires CacheSound(rs, cache) && IsLowerCase(id) && FindKey(rs, id, 0) == None
    ensures id !in cache
  {
    LowerIsLowerCase(id);
  }

  /** `db[id] = fields` followed by `db[id]` gives the fields back, when the
      id is lower-case and marker-free, no record answers it yet, the fields
      are marker-free and non-empty, and the cache is sound. */
  lemma SetThenGet(rs: seq<seq<string>>, cache: map<string, string>, id: string, fields: seq<string>)
    requires RecordsOk(rs) && CacheSound(rs, cache)
    requires MarkerFree(id) && IsLowerCase(id) && FindKey(rs, id, 0) == None
    requires FieldsOk(fields) && |fields| >= 1
    ensures GetItem(SetItem(DB(Buffer(rs), cache), id, fields), id).0 == Ok(fields)
  {
    var f := [id] + fields;
    InsertRecord(rs, cache, f);
    NotCached(rs, cache, id);
    LowerIsLowerCase(id);
    FindKeyAppend(rs, f, id, 0);
    assert FieldsOk(f) by {
      forall j | 0 <= j < |f|
        ensures MarkerFree(f[j])
      {
        if j > 0 {
          assert f[j] == fields[j - 1];
        }
      }
    }
    assert RecordsOk(rs + [f]);
    GetItemStore(rs + [f], cache, id);
    assert (rs + [f])[|rs|][1..] == fields;
  }

  /** The file `create` starts and its writer appends to is the buffer of
      the store followed by the written records. */
  lemma {:induction false} WriteAllRecords(rs: seq<seq<string>>, more: seq<seq<string>>)
    ensures WriteAll(Buffer(rs), more) == Buffer(rs + more)
    decreases |more|
  {
    if more != [] {
      assert (rs + [more[0]])[..|rs|] == rs;
      assert Write(Buffer(rs), more[0]) == Buffer(rs + [more[0]]);
      WriteAllRecords(rs + [more[0]], more[1..]);
      assert rs + [more[0]] + more[1..] == rs + more;
    } else {
      assert rs + more == rs;
    }
  }

  /** A file created from a store and then given records holds the store
      with those records appended. */
  lemma CreateThenWrite(rs: seq<seq<string>>, cache: map<string, string>, more: seq<seq<string>>)
    ensures WriteAll(Create(DB(Buffer(rs), cache)), more) == Buffer(rs + more)
  {
    WriteAllRecords(rs, more);
  }

  /** `TextDB()` is the store of no records: every lookup raises
      `KeyError`, which is not cached, and iteration yields nothing. */
  lemma EmptyStore(id: string)
    ensures Empty() == Open(Buffer([]))
    ensures GetItem(Empty(), id) == (Err(KeyError(id)), Empty())
    ensures Iter(Empty()) == []
  {
  }

  /** `TextDB(file)` on a file written record by record holds those records,
      and its fresh cache is sound for them. */
  lemma OpenSound(rs: seq<seq<string>>)
    requires RecordsOk(rs)
    ensures Open(Buffer(rs)).text == Buffer(rs) && CacheSound(rs, Open(Buffer(rs)).cache)
    ensures Iter(Open(Buffer(rs))) == RecordIds(rs)
  {
    IterRecords(rs, map[]);
  }

  /** After a successful search, `db[id]` answers from the cache for the id
      of a matching record that no later matching record shares its id with:
      the fields after the id, whatever the case of the id. */
  lemma SearchThenGet(rs: seq<seq<string>>, s: string, cache: map<string, string>, j: nat)
    requires RecordsOk(rs) && Searchable(s) && SearchRecords(rs, Lower(s), cache).0.Ok?
    requires j < |rs| && |rs[j]| >= 1 && Occurs(Lower(Body(rs[j])), Lower(s))
    requires forall k :: j < k < |rs| && |rs[k]| >= 1 && Occurs(Lower(Body(rs[k])), Lower(s)) ==> rs[k][0] != rs[j][0]
    ensures !ScanNeverEnds(Lower(Buffer(rs)), Lower(s), true)
    ensures GetItem(Search(DB(Buffer(rs), cache), s).1, rs[j][0]).0 == Ok(rs[j][1..])
  {
    SearchStore(rs, s, cache);
    SearchLastWins(rs, Lower(s), cache, j);
    assert FieldsOk(rs[j]);
    DecodeBody(rs[j]);
  }

  /** A record whose id holds an upper-case letter is not found by `db[id]`
      on a fresh store, and is found once a search has hit it. */
  lemma UpperFoundAfterSearch(id: string, f: string, s: string)
    requires !IsLowerCase(id) && FieldsOk([id, f]) && Searchable(s)
    requires Occurs(Lower(Body([id, f])), Lower(s))
    ensures GetItem(Open(Buffer([[id, f]])), id).0 == Err(KeyError(id))
    ensures !ScanNeverEnds(Lower(Buffer([[id, f]])), Lower(s), true)
    ensures GetItem(Search(Open(Buffer([[id, f]])), s).1, id).0 == Ok([f])
  {
    var rs := [[id, f]];
    LookUpUpper(Buffer(rs), id);
    assert rs[0] == [id, f] && rs[1..] == [];
    assert SearchRecords(rs[1..], Lower(s), map[][id := Body([id, f])]).0 == Ok([]);
    assert SearchRecords(rs, Lower(s), map[]).0.Ok?;
    SearchThenGet(rs, s, map[], 0);
    assert [id, f][1..] == [f];
  }
}

=== FILE: queries.dfy ===
/** What the queries of `TextDB` return over a well-formed store, stated
    record by record: iteration, search and lookup by id. */
module Queries {
  import opened Wrappers
  import opened Strings
  import opened Codec
  import opened TextDB
  import opened Records

  /** The ids iteration reports: the first field of every record that is
      not blank, in insertion order. */
  function RecordIds(rs: seq<seq<string>>): (ids: seq<string>)
    ensures |ids| <= |rs|
  {
    if rs == [] then []
    else (if Blank(rs[0]) then [] else [rs[0][0]]) + RecordIds(rs[1..])
  }

  /** The start offsets of the records from `k` on. */
  ghost function Starts(rs: seq<seq<string>>, k: nat): seq<nat>
    requires k <= |rs|
    decreases |rs| - k
  {
    if k == |rs| then [] else [Offset(rs, k)] + Starts(rs, k + 1)
  }

  /** A unique-mode scan for the start marker stops at every record's start. */
  lemma {:induction false} StartHits(rs: seq<seq<string>>, k: nat)
    requires k <= |rs|
    ensures UniqueHits(rs, [START], k) == Starts(rs, k)
    decreases |rs| - k
  {
    if k < |rs| {
      StartHits(rs, k + 1);
      RecordChars(rs, k);
      MatchOne(Buffer(rs), START, Offset(rs, k));
      FindIs(Buffer(rs), [START], Offset(rs, k), Offset(rs, k));
    }
  }

  /** Two stores with the same offsets have the same record starts. */
  lemma {:induction false} StartsAgree(rs: seq<seq<string>>, qs: seq<seq<string>>, k: nat)
    requires |rs| == |qs| && k <= |rs|
    requires forall j :: 0 <= j <= |rs| ==> Offset(rs, j) == Offset(qs, j)
    ensures Starts(rs, k) == Starts(qs, k)
    decreases |rs| - k
  {
    if k < |rs| {
      StartsAgree(rs, qs, k + 1);
    }
  }

  /** The loop body of `__iter__` at the record starts yields the record ids. */
  lemma {:induction false} IdsAtStarts(rs: seq<seq<string>>, k: nat)
    requires RecordsOk(rs) && k <= |rs|
    ensures IdsAt(Buffer(rs), Starts(rs, k)) == RecordIds(rs[k..])
    decreases |rs| - k
  {
    if k < |rs| {
      IdsAtStarts(rs, k + 1);
      Layout(rs, k);
      EntryAt(rs, k, Offset(rs, k));
      BodyEmpty(rs[k]);
      if !Blank(rs[k]) {
        FirstFieldOfBody(rs[k]);
      }
      assert rs[k..][0] == rs[k] && rs[k..][1..] == rs[k + 1..];
    }
  }

  /** The scan of `__iter__` always ends on a well-formed store: its last
      byte, if any, is a newline. */
  lemma IterEnds(rs: seq<seq<string>>)
    ensures !ScanNeverEnds(Lower(Buffer(rs)), [START], true)
  {
    if |Buffer(rs)| > 0 {
      BufferLastByte(rs);
    }
  }

  /** Iterating a store lists the id of every non-blank record, in insertion order. */
  lemma IterRecords(rs: seq<seq<string>>, cache: map<string, string>)
    requires RecordsOk(rs)
    ensures !ScanNeverEnds(Lower(Buffer(rs)), [START], true)
    ensures Iter(DB(Buffer(rs), cache)) == RecordIds(rs)
  {
    IterEnds(rs);
    var lr := LowerRecords(rs);
    LowerBuffer(rs);
    LowerRecordsLayout(rs);
    ScanRecords(lr, [START], 0);
    StartHits(lr, 0);
    StartsAgree(lr, rs, 0);
    IdsAtStarts(rs, 0);
    assert rs[0..] == rs;
  }

  /** A search pattern whose matches cannot straddle a record's markers:
      non-empty, without start or end marker, and not a lone newline (which
      would also match the newline closing every record). */
  predicate Searchable(p: string)
  {
    |p| > 0 && Lacks(p, START) && Lacks(p, ENDC) && p != ['\n']
  }

  /** Lower-casing keeps a pattern searchable. */
  lemma SearchableLower(s: string)
    requires Searchable(s)
    ensures Searchable(Lower(s))
  {
    if |s| == 1 {
      assert s[0] != '\n' by { assert s != ['\n'] && s == [s[0]]; }
      assert Lower(s) == [LowerChar(s[0])];
    }
  }

  /** A match inside a slice is a match in the whole text, and back. */
  lemma MatchInSlice(t: string, p: string, a: nat, b: nat, s: string, i: nat)
    requires a <= b <= |t| && t[a..b] == s && i + |p| <= |s|
    ensures MatchAt(s, p, i) <==> MatchAt(t, p, a + i)
  {
    SubSlice(t, a, b, s, i, i + |p|);
  }

  /** Over any text holding an encoded record with body `b` between a start
      marker at `o` and an end marker at `e`, the scan for a searchable
      pattern from `o` hits before the next record exactly when `b` holds
      the pattern, and then strictly inside `b`. */
  lemma HitBetween(t: string, p: string, o: nat, e: nat, b: string)
    requires Searchable(p) && Framed(t, o, e)
    requires t[o + 1..e] == b
    ensures var h := Find(t, p, o);
      && (0 <= h < e + 2 <==> Occurs(b, p))
      && (0 <= h < e + 2 ==> o < h < e)
  {
    var h := Find(t, p, o);
    if 0 <= h < e + 2 {
      FrameHit(t, p, o, e, h);
      MatchInSlice(t, p, o + 1, e, b, h - o - 1);
    }
    if Occurs(b, p) {
      var i :| MatchAt(b, p, i);
      MatchInSlice(t, p, o + 1, e, b, i);
    }
  }

  /** The layout facts `HitBetween` needs, for record `k` of a store. */
  lemma RecordFrame(rs: seq<seq<string>>, k: nat)
    requires k < |rs|
    ensures Offset(rs, k + 1) == EndPos(rs, k) + 2
    ensures Offset(rs, k) <= EndPos(rs, k) && EndPos(rs, k) + 1 < |Buffer(rs)|
    ensures Buffer(rs)[Offset(rs, k)] == START && Buffer(rs)[EndPos(rs, k)] == ENDC
    ensures Buffer(rs)[EndPos(rs, k) + 1] == '\n'
    ensures EndPos(rs, k) + 2 < |Buffer(rs)| ==> Buffer(rs)[EndPos(rs, k) + 2] == START
  {
    RecordChars(rs, k);
    if k + 1 < |rs| {
      RecordChars(rs, k + 1);
    } else {
      OffsetEnd(rs);
    }
  }

  /** The scan for a searchable pattern from record `k`'s start hits inside
      the record exactly when its body holds the pattern. */
  lemma HitInRecord(rs: seq<seq<string>>, p: string, k: nat)
    requires k < |rs| && Searchable(p)
    ensures var h := Find(Buffer(rs), p, Offset(rs, k));
      0 <= h < Offset(rs, k + 1) <==> Occurs(Body(rs[k]), p)
  {
    assert Framed(Buffer(rs), Offset(rs, k), EndPos(rs, k)) && Offset(rs, k + 1) == EndPos(rs, k) + 2 by {
      RecordFrame(rs, k);
    }
    HitBetween(Buffer(rs), p, Offset(rs, k), EndPos(rs, k), Buffer(rs)[Offset(rs, k) + 1..EndPos(rs, k)]);
    BodyOccurs(rs, k, p);
  }

  /** A frame followed by the next start marker, if anything. */
  predicate Framed(b: string, o: nat, e: nat)
  {
    Frame(b, o, e) && (e + 2 < |b| ==> b[e + 2] == START)
  }

  /** A searchable pattern matching in a frame `START ... ENDC '\n'` that is
      followed by the next start marker, if anything, begins and ends
      strictly inside the frame. */
  lemma FrameHit(b: string, p: string, o: nat, e: nat, h: nat)
    requires Searchable(p) && Framed(b, o, e)
    requires o <= h < e + 2
    ensures MatchAt(b, p, h) ==> o < h && h + |p| <= e
  {
    MatchAtChars(b, p, h);
    if h == o {
      assert p[0] != START;
    } else if h == e + 1 {
      if |p| == 1 {
        assert p[0] != '\n' by { assert p != ['\n'] && p == [p[0]]; }
      } else if e + 2 < |b| {
        assert p[1] != START;
      }
    } else if h + |p| > e {
      assert p[e - h] != ENDC;
    }
  }

  /** Such a hit lies strictly inside the record's body. */
  lemma HitInBody(rs: seq<seq<string>>, p: string, k: nat, h: nat)
    requires k < |rs| && Searchable(p)
    requires Offset(rs, k) <= h < Offset(rs, k + 1)
    ensures MatchAt(Buffer(rs), p, h) ==> Offset(rs, k) < h < EndPos(rs, k)
  {
    assert Framed(Buffer(rs), Offset(rs, k), EndPos(rs, k)) && Offset(rs, k + 1) == EndPos(rs, k) + 2 by {
      RecordFrame(rs, k);
    }
    FrameHit(Buffer(rs), p, Offset(rs, k), EndPos(rs, k), h);
  }

  /** The body's slice of the store holds a pattern exactly when the body does. */
  lemma BodyOccurs(rs: seq<seq<string>>, k: nat, p: string)
    requires k < |rs|
    ensures EndPos(rs, k) < |Buffer(rs)|
    ensures Occurs(Buffer(rs)[Offset(rs, k) + 1..EndPos(rs, k)], p) <==> Occurs(Body(rs[k]), p)
  {
    BodySlice(rs, k);
  }

  /** `search` read record by record: every record whose body holds the
      lower-cased pattern, ignoring case, contributes its id and caches its
      body under that id; the first such record without a separator stops
      the search with `ValueError`. */
  ghost function SearchRecords(rs: seq<seq<string>>, p: string, cache: map<string, string>): (out: (Result<seq<string>, Error>, map<string, string>))
    decreases |rs|
  {
    if rs == [] then (Ok([]), cache)
    else if !Occurs(Lower(Body(rs[0])), p) then SearchRecords(rs[1..], p, cache)
    else if |rs[0]| < 2 then (Err(ValueError), cache)
    else
      var (r, c) := SearchRecords(rs[1..], p, cache[rs[0][0] := Body(rs[0])]);
      (if r.Ok? then Ok([rs[0][0]] + r.value) else r, c)
  }

  /** One step of the loop of `search`, at a hit inside a record with the given fields. */
  lemma CollectCons(text: string, h: nat, rest: seq<nat>, cache: map<string, string>, fields: seq<string>)
    requires FieldsOk(fields) && GetEntryAt(text, h) == Body(fields)
    ensures CollectHits(text, [h] + rest, cache) ==
      if |fields| < 2 then (Err(ValueError), cache)
      else
        var (r, c) := CollectHits(text, rest, cache[fields[0] := Body(fields)]);
        (if r.Ok? then Ok([fields[0]] + r.value) else r, c)
  {
    FirstFieldOfBody(fields);
    assert ([h] + rest)[0] == h && ([h] + rest)[1..] == rest;
  }

  /** One step of `SearchRecords`, at a record that holds the pattern. */
  lemma SearchCons(rs: seq<seq<string>>, p: string, k: nat, cache: map<string, string>)
    requires k < |rs| && Occurs(Lower(Body(rs[k])), p)
    ensures SearchRecords(rs[k..], p, cache) ==
      if |rs[k]| < 2 then (Err(ValueError), cache)
      else
        var (r, c) := SearchRecords(rs[k + 1..], p, cache[rs[k][0] := Body(rs[k])]);
        (if r.Ok? then Ok([rs[k][0]] + r.value) else r, c)
  {
    assert rs[k..][0] == rs[k] && rs[k..][1..] == rs[k + 1..];
  }

  /** One step of `SearchRecords`, at a record that does not hold the pattern. */
  lemma SearchSkip(rs: seq<seq<string>>, p: string, k: nat, cache: map<string, string>)
    requires k < |rs| && !Occurs(Lower(Body(rs[k])), p)
    ensures SearchRecords(rs[k..], p, cache) == SearchRecords(rs[k + 1..], p, cache)
  {
    assert rs[k..][0] == rs[k] && rs[k..][1..] == rs[k + 1..];
  }

  /** The scan of the lower-cased store hits inside record `k` exactly when
      the record's lower-cased body holds the pattern, and the entry read at
      that hit from the original store is the record's body. */
  lemma LoweredHit(rs: seq<seq<string>>, p: string, k: nat)
    requires RecordsOk(rs) && k < |rs| && Searchable(p)
    ensures var lr := LowerRecords(rs);
      var h := Find(Buffer(lr), p, Offset(lr, k));
      && (0 <= h < Offset(lr, k + 1) <==> Occurs(Lower(Body(rs[k])), p))
      && (0 <= h < Offset(lr, k + 1) ==> GetEntryAt(Buffer(rs), h) == Body(rs[k]))
  {
    var lr := LowerRecords(rs);
    LowerRecordsLayout(rs);
    HitInRecord(lr, p, k);
    var h := Find(Buffer(lr), p, Offset(lr, k));
    assert Offset(lr, k) == Offset(rs, k) && Body(lr[k]) == Lower(Body(rs[k]));
    if 0 <= h < Offset(lr, k + 1) {
      HitInBody(lr, p, k, h);
      LoweredEntry(rs, lr, k, h);
    }
  }

  /** A hit inside record `k` of the lower-cased store reads the original record's body. */
  lemma LoweredEntry(rs: seq<seq<string>>, lr: seq<seq<string>>, k: nat, h: int)
    requires RecordsOk(rs) && k < |rs| == |lr|
    requires Offset(lr, k) == Offset(rs, k) && Body(lr[k]) == Lower(Body(rs[k]))
    requires Offset(lr, k) < h < EndPos(lr, k)
    ensures GetEntryAt(Buffer(rs), h) == Body(rs[k])
  {
    assert EndPos(lr, k) == EndPos(rs, k);
    EntryAt(rs, k, h);
  }

  /** The loop of `search` over the scan's hits computes `SearchRecords`. */
  lemma {:induction false} CollectRecords(rs: seq<seq<string>>, p: string, k: nat, cache: map<string, string>)
    requires RecordsOk(rs) && k <= |rs| && Searchable(p)
    ensures CollectHits(Buffer(rs), UniqueHits(LowerRecords(rs), p, k), cache) == SearchRecords(rs[k..], p, cache)
    decreases |rs| - k
  {
    if k < |rs| {
      var lr := LowerRecords(rs);
      LoweredHit(rs, p, k);
      var h := Find(Buffer(lr), p, Offset(lr, k));
      var rest := UniqueHits(lr, p, k + 1);
      if 0 <= h < Offset(lr, k + 1) {
        assert UniqueHits(lr, p, k) == [h] + rest;
        assert FieldsOk(rs[k]);
        CollectCons(Buffer(rs), h, rest, cache, rs[k]);
        SearchCons(rs, p, k, cache);
        if |rs[k]| >= 2 {
          CollectRecords(rs, p, k + 1, cache[rs[k][0] := Body(rs[k])]);
        }
      } else {
        assert UniqueHits(lr, p, k) == rest;
        SearchSkip(rs, p, k, cache);
        CollectRecords(rs, p, k + 1, cache);
      }
    }
  }

  /** `search(s)` on a well-formed store is `SearchRecords` with the
      lower-cased string; its scan always ends. */
  lemma SearchStore(rs: seq<seq<string>>, s: string, cache: map<string, string>)
    requires RecordsOk(rs) && Searchable(s)
    ensures !ScanNeverEnds(Lower(Buffer(rs)), Lower(s), true)
    ensures var out := SearchRecords(rs, Lower(s), cache);
      Search(DB(Buffer(rs), cache), s) == (out.0, DB(Buffer(rs), out.1))
  {
    SearchableLower(s);
    var lr := LowerRecords(rs);
    LowerBuffer(rs);
    LowerRecordsLayout(rs);
    if |Buffer(rs)| > 0 {
      BufferLastByte(rs);
      assert Lower(s) != ['\n'];
    }
    ScanRecords(lr, Lower(s), 0);
    CollectRecords(rs, Lower(s), 0, cache);
    assert rs[0..] == rs;
  }

  /** The ids a search reports, read off the records alone: the id of every
      record whose lower-cased body holds `p`, in store order. */
  ghost function MatchingIds(rs: seq<seq<string>>, p: string): seq<string>
    decreases |rs|
  {
    if rs == [] then []
    else (if Occurs(Lower(Body(rs[0])), p) && |rs[0]| >= 1 then [rs[0][0]] else []) + MatchingIds(rs[1..], p)
  }

  /** A search succeeds exactly when every record holding the pattern has a
      separator, and then it reports the matching records' ids, whatever the
      cache held before. */
  lemma {:induction false} SearchOkIff(rs: seq<seq<string>>, p: string, cache: map<string, string>)
    ensures SearchRecords(rs, p, cache).0.Ok? <==>
      forall j :: 0 <= j < |rs| && Occurs(Lower(Body(rs[j])), p) ==> |rs[j]| >= 2
    ensures SearchRecords(rs, p, cache).0.Ok? ==> SearchRecords(rs, p, cache).0.value == MatchingIds(rs, p)
    decreases |rs|
  {
    if rs != [] {
      if !Occurs(Lower(Body(rs[0])), p) {
        SearchOkIff(rs[1..], p, cache);
      } else if |rs[0]| >= 2 {
        SearchOkIff(rs[1..], p, cache[rs[0][0] := Body(rs[0])]);
      }
      assert forall j :: 1 <= j < |rs| ==> rs[1..][j - 1] == rs[j];
    }
  }

  /** The ids of `MatchingIds` are the first fields of the records holding the pattern. */
  lemma {:induction false} MatchingIdsIn(rs: seq<seq<string>>, p: string, x: string)
    ensures x in MatchingIds(rs, p) <==>
      exists j :: 0 <= j < |rs| && |rs[j]| >= 1 && rs[j][0] == x && Occurs(Lower(Body(rs[j])), p)
    decreases |rs|
  {
    if rs != [] {
      MatchingIdsIn(rs[1..], p, x);
      if x in MatchingIds(rs[1..], p) {
        var j :| 0 <= j < |rs[1..]| && |rs[1..][j]| >= 1 && rs[1..][j][0] == x && Occurs(Lower(Body(rs[1..][j])), p);
        assert rs[j + 1] == rs[1..][j];
      }
      assert forall j :: 1 <= j < |rs| ==> rs[1..][j - 1] == rs[j];
    }
  }

  /** No two records share an id. */
  ghost predicate DistinctIds(rs: seq<seq<string>>)
  {
    forall i, j :: 0 <= i < j < |rs| && |rs[i]| >= 1 && |rs[j]| >= 1 ==> rs[i][0] != rs[j][0]
  }

  /** A search leaves the cache entry of an id no record has as it was. */
  lemma {:induction false} SearchKeeps(rs: seq<seq<string>>, p: string, cache: map<string, string>, x: string)
    requires forall k :: 0 <= k < |rs| && |rs[k]| >= 1 && Occurs(Lower(Body(rs[k])), p) ==> rs[k][0] != x
    ensures x in SearchRecords(rs, p, cache).1 <==> x in cache
    ensures x in cache ==> SearchRecords(rs, p, cache).1[x] == cache[x]
    decreases |rs|
  {
    if rs != [] {
      assert forall k :: 1 <= k < |rs| ==> rs[1..][k - 1] == rs[k];
      if !Occurs(Lower(Body(rs[0])), p) {
        SearchKeeps(rs[1..], p, cache, x);
      } else if |rs[0]| >= 2 {
        SearchKeeps(rs[1..], p, cache[rs[0][0] := Body(rs[0])], x);
      }
    }
  }

  /** After a successful search, a record holding the pattern that no later
      matching record shares its id with is cached under its id with its
      body, whatever the cache held under that id before: `search` stores
      every entry it reports, replacing an earlier value. */
  lemma {:induction false} SearchLastWins(rs: seq<seq<string>>, p: string, cache: map<string, string>, j: nat)
    requires SearchRecords(rs, p, cache).0.Ok?
    requires j < |rs| && |rs[j]| >= 1 && Occurs(Lower(Body(rs[j])), p)
    requires forall k :: j < k < |rs| && |rs[k]| >= 1 && Occurs(Lower(Body(rs[k])), p) ==> rs[k][0] != rs[j][0]
    ensures |rs[j]| >= 2 && rs[j][0] in SearchRecords(rs, p, cache).1
    ensures SearchRecords(rs, p, cache).1[rs[j][0]] == Body(rs[j])
    decreases |rs|
  {
    assert forall k :: 1 <= k < |rs| ==> rs[1..][k - 1] == rs[k];
    if !Occurs(Lower(Body(rs[0])), p) {
      SearchLastWins(rs[1..], p, cache, j - 1);
    } else {
      var c := cache[rs[0][0] := Body(rs[0])];
      if j == 0 {
        SearchKeeps(rs[1..], p, c, rs[0][0]);
      } else {
        SearchLastWins(rs[1..], p, c, j - 1);
      }
    }
  }

  /** After a successful search over records with distinct ids, every
      record holding the pattern is cached under its id with its body. */
  lemma SearchCached(rs: seq<seq<string>>, p: string, cache: map<string, string>, j: nat)
    requires DistinctIds(rs) && SearchRecords(rs, p, cache).0.Ok?
    requires j < |rs| && Occurs(Lower(Body(rs[j])), p)
    ensures |rs[j]| >= 2 && rs[j][0] in SearchRecords(rs, p, cache).1
    ensures SearchRecords(rs, p, cache).1[rs[j][0]] == Body(rs[j])
  {
    SearchOkIff(rs, p, cache);
    SearchLastWins(rs, p, cache, j);
  }

  /** A search replaces the value a lookup cached before: with two records
      of the same id that both hold the pattern, the cache ends up holding
      the second one's body, even when it held the first one's. */
  lemma SearchReplaces(a: seq<string>, b: seq<string>, p: string, cache: map<string, string>)
    requires |a| >= 2 && |b| >= 2 && a[0] == b[0]
    requires Occurs(Lower(Body(a)), p) && Occurs(Lower(Body(b)), p)
    ensures SearchRecords([a, b], p, cache).0 == Ok([a[0], b[0]])
    ensures a[0] in SearchRecords([a, b], p, cache).1 && SearchRecords([a, b], p, cache).1[a[0]] == Body(b)
  {
    var rs := [a, b];
    var c1 := cache[a[0] := Body(a)];
    var c2 := c1[b[0] := Body(b)];
    assert rs[0..] == rs && rs[1..] == [b] && rs[2..] == [];
    assert rs[1] == b && SearchRecords(rs[2..], p, c2) == (Ok([]), c2);
    assert [b[0]] + [] == [b[0]];
    SearchCons(rs, p, 1, c1);
    assert SearchRecords(rs[1..], p, c1) == (Ok([b[0]]), c2);
    SearchCons(rs, p, 0, cache);
    assert [a[0]] + [b[0]] == [a[0], b[0]];
    assert SearchRecords(rs, p, cache) == (Ok([a[0], b[0]]), c2);
  }
}

=== FILE: records.dfy ===
/** The record-level reading of a well-formed store: what the byte scans of
    `TextDB` compute when the buffer is the encoding of a list of records
    whose fields hold no marker. */
module Records {
  import opened Strings
  import opened Codec
  import opened TextDB

  /** A start marker at `o`, and an end marker followed by a newline at `e`. */
  predicate Frame(t: string, o: nat, e: nat)
  {
    o <= e && e + 1 < |t| && t[o] == START && t[e] == ENDC && t[e + 1] == '\n'
  }

  /** A frame with no marker of either kind inside it. */
  predicate Enclosed(t: string, o: nat, e: nat)
  {
    && Frame(t, o, e)
    && (forall j :: o < j <= e ==> t[j] != START)
    && (forall j :: o <= j < e ==> t[j] != ENDC)
  }

  /** `_get_entry_at` over any text: from an offset between a start marker at
      `o` and an end marker at `e`, with neither marker in between, it returns
      the bytes strictly between them. */
  lemma EntryBetween(t: string, o: nat, e: nat, p: nat)
    requires o <= p <= e && Enclosed(t, o, e)
    ensures GetEntryAt(t, p) == t[o + 1..e]
  {
    MatchOne(t, START, o);
    forall j | o < j && j + 1 <= ClampEnd(|t|, p + 1)
      ensures !MatchAt(t, [START], j)
    {
      MatchOne(t, START, j);
    }
    assert RFind(t, [START], p + 1) == o;
    MatchAtChars(t, END, e);
    forall j | ClampStart(|t|, p) <= j < e
      ensures !MatchAt(t, END, j)
    {
      MatchAtChars(t, END, j);
    }
    FindIs(t, END, p, e);
  }

  /** `_get_entry_at` inside record `k` returns the bytes between its markers. */
  lemma EntrySlice(rs: seq<seq<string>>, k: nat, p: nat)
    requires RecordsOk(rs) && k < |rs|
    requires Offset(rs, k) <= p <= EndPos(rs, k)
    ensures EndPos(rs, k) < |Buffer(rs)|
    ensures GetEntryAt(Buffer(rs), p) == Buffer(rs)[Offset(rs, k) + 1..EndPos(rs, k)]
  {
    assert Enclosed(Buffer(rs), Offset(rs, k), EndPos(rs, k)) by {
      RecordInterior(rs, k);
    }
    EntryBetween(Buffer(rs), Offset(rs, k), EndPos(rs, k), p);
  }

  /** For any offset from a record's start marker up to its end marker,
      `_get_entry_at` returns exactly that record's body. */
  lemma EntryAt(rs: seq<seq<string>>, k: nat, p: nat)
    requires RecordsOk(rs) && k < |rs|
    requires Offset(rs, k) <= p <= EndPos(rs, k)
    ensures GetEntryAt(Buffer(rs), p) == Body(rs[k])
  {
    EntrySlice(rs, k, p);
    BodySlice(rs, k);
  }

  /** `find(START, h + 1)` over any text, when the next start marker is at `o1` or there is none. */
  lemma StartAfter(t: string, h: nat, o1: nat)
    requires h < o1 <= |t|
    requires forall j :: h < j < o1 ==> t[j] != START
    requires o1 < |t| ==> t[o1] == START
    ensures Find(t, [START], h + 1) == if o1 < |t| then o1 else -1
  {
    forall j | h + 1 <= j < o1
      ensures !MatchAt(t, [START], j)
    {
      MatchOne(t, START, j);
    }
    if o1 < |t| {
      MatchOne(t, START, o1);
      FindIs(t, [START], h + 1, o1);
    } else {
      forall j | h + 1 <= j
        ensures !MatchAt(t, [START], j)
      {
        MatchOne(t, START, j);
      }
      FindNone(t, [START], h + 1);
    }
  }

  /** The stretch after a hit inside record `k` holds no start marker up to record `k+1`. */
  lemma NoStartAfterHit(rs: seq<seq<string>>, k: nat, h: nat)
    requires RecordsOk(rs) && k < |rs|
    requires Offset(rs, k) <= h < Offset(rs, k + 1)
    ensures Offset(rs, k + 1) <= |Buffer(rs)|
    ensures forall j :: h < j < Offset(rs, k + 1) ==> Buffer(rs)[j] != START
  {
    RecordInterior(rs, k);
  }

  /** After a hit inside record `k`, the next start marker is record `k+1`'s, or none. */
  lemma NextStart(rs: seq<seq<string>>, k: nat, h: nat)
    requires RecordsOk(rs) && k < |rs|
    requires Offset(rs, k) <= h < Offset(rs, k + 1)
    ensures k + 1 < |rs| ==> Find(Buffer(rs), [START], h + 1) == Offset(rs, k + 1)
    ensures k + 1 == |rs| ==> Find(Buffer(rs), [START], h + 1) == -1
  {
    NoStartAfterHit(rs, k, h);
    OffsetEnd(rs);
    if k + 1 < |rs| {
      OffsetMono(rs, k + 1, |rs|);
      RecordInterior(rs, k + 1);
    } else {
      assert rs[..k + 1] == rs;
    }
    StartAfter(Buffer(rs), h, Offset(rs, k + 1));
  }

  /** The hits of a unique-mode scan, record by record from record `k` on:
      the first occurrence of `pat` that starts inside each record, if any. */
  ghost function UniqueHits(rs: seq<seq<string>>, pat: string, k: nat): seq<nat>
    requires k <= |rs|
    decreases |rs| - k
  {
    if k == |rs| then []
    else
      var h := Find(Buffer(rs), pat, Offset(rs, k));
      (if 0 <= h < Offset(rs, k + 1) then [h as nat] else []) + UniqueHits(rs, pat, k + 1)
  }

  /** The scan step at record `k` when no match follows its start. */
  lemma ScanStepNone(rs: seq<seq<string>>, pat: string, k: nat)
    requires k < |rs| && !ScanNeverEnds(Buffer(rs), pat, true)
    requires Find(Buffer(rs), pat, Offset(rs, k)) == -1
    requires FindAllFrom(Buffer(rs), pat, Offset(rs, k + 1), true) == UniqueHits(rs, pat, k + 1)
    ensures FindAllFrom(Buffer(rs), pat, Offset(rs, k), true) == UniqueHits(rs, pat, k)
  {
    Layout(rs, k);
    FindNone(Buffer(rs), pat, Offset(rs, k + 1));
    assert UniqueHits(rs, pat, k + 1) == [];
  }

  /** The scan step at record `k` when the next match lies beyond it. */
  lemma ScanStepSkip(rs: seq<seq<string>>, pat: string, k: nat)
    requires k < |rs| && !ScanNeverEnds(Buffer(rs), pat, true)
    requires Find(Buffer(rs), pat, Offset(rs, k)) >= Offset(rs, k + 1)
    requires FindAllFrom(Buffer(rs), pat, Offset(rs, k + 1), true) == UniqueHits(rs, pat, k + 1)
    ensures FindAllFrom(Buffer(rs), pat, Offset(rs, k), true) == UniqueHits(rs, pat, k)
  {
    Layout(rs, k);
    ScanSkip(Buffer(rs), pat, Offset(rs, k), Offset(rs, k + 1), true);
    assert UniqueHits(rs, pat, k) == UniqueHits(rs, pat, k + 1);
  }

  /** The scan step at record `k` when a match starts inside it. */
  lemma ScanStepHit(rs: seq<seq<string>>, pat: string, k: nat)
    requires RecordsOk(rs) && k < |rs| && !ScanNeverEnds(Buffer(rs), pat, true)
    requires 0 <= Find(Buffer(rs), pat, Offset(rs, k)) < Offset(rs, k + 1)
    requires FindAllFrom(Buffer(rs), pat, Offset(rs, k + 1), true) == UniqueHits(rs, pat, k + 1)
    ensures FindAllFrom(Buffer(rs), pat, Offset(rs, k), true) == UniqueHits(rs, pat, k)
  {
    var t := Buffer(rs);
    var h := Find(t, pat, Offset(rs, k));
    NextStart(rs, k, h);
    ScanStep(t, pat, Offset(rs, k), true, h, Find(t, [START], h + 1));
    if k + 1 == |rs| {
      RestartFindsNothing(t, pat);
      OffsetEnd(rs);
      assert UniqueHits(rs, pat, k + 1) == [];
    }
  }

  /** A unique-mode scan of a well-formed store yields, for every record in
      order, the first occurrence that starts inside it: one hit per record at most. */
  lemma {:induction false} ScanRecords(rs: seq<seq<string>>, pat: string, k: nat)
    requires RecordsOk(rs) && k <= |rs|
    requires !ScanNeverEnds(Buffer(rs), pat, true)
    ensures FindAllFrom(Buffer(rs), pat, Offset(rs, k), true) == UniqueHits(rs, pat, k)
    decreases |rs| - k
  {
    var t := Buffer(rs);
    if k == |rs| {
      OffsetEnd(rs);
      FindNone(t, pat, |t|);
    } else {
      ScanRecords(rs, pat, k + 1);
      var h := Find(t, pat, Offset(rs, k));
      if h == -1 {
        ScanStepNone(rs, pat, k);
      } else if h >= Offset(rs, k + 1) {
        ScanStepSkip(rs, pat, k);
      } else {
        ScanStepHit(rs, pat, k);
      }
    }
  }
}

=== FILE: strings.dfy ===
/** The Python 2 byte-string primitives the record store is built from:
    `find`, `rfind`, slicing, `split`, `join`, `lower`, `rstrip` and `strip`. */
module Strings {

  /** `pat` occurs in `text` starting at offset `i`. */
  predicate MatchAt(text: string, pat: string, i: int)
  {
    0 <= i && i + |pat| <= |text| && text[i..i + |pat|] == pat
  }

  /** `pat` occurs somewhere in `text` (Python's `pat in text`). */
  ghost predicate Occurs(text: string, pat: string)
  {
    exists i :: MatchAt(text, pat, i)
  }

  /** How `str.find` reads a start offset: negative values count from the end, clamped at 0. */
  function ClampStart(len: nat, start: int): nat
  {
    if start >= 0 then start else if len + start >= 0 then len + start else 0
  }

  /** Leftmost occurrence of `pat` at or after offset `i`, or -1. */
  function FindFrom(text: string, pat: string, i: nat): (r: int)
    ensures r == -1 || (i <= r && MatchAt(text, pat, r))
    ensures forall j :: i <= j && (r == -1 || j < r) ==> !MatchAt(text, pat, j)
    decreases |text| - i
  {
    if i + |pat| > |text| then -1
    else if text[i..i + |pat|] == pat then i
    else FindFrom(text, pat, i + 1)
  }

  /** Python's `text.find(pat, start)`. */
  function Find(text: string, pat: string, start: int): (r: int)
    ensures r == -1 || (ClampStart(|text|, start) <= r && MatchAt(text, pat, r))
    ensures forall j :: ClampStart(|text|, start) <= j && (r == -1 || j < r) ==> !MatchAt(text, pat, j)
  {
    FindFrom(text, pat, ClampStart(|text|, start))
  }

  /** A match at `r` with none between the start and `r` is what `Find` returns. */
  lemma FindIs(text: string, pat: string, start: int, r: int)
    requires ClampStart(|text|, start) <= r && MatchAt(text, pat, r)
    requires forall j :: ClampStart(|text|, start) <= j < r ==> !MatchAt(text, pat, j)
    ensures Find(text, pat, start) == r
  {
  }

  /** No match at all from the start on is what makes `Find` return -1. */
  lemma FindNone(text: string, pat: string, start: int)
    requires forall j :: ClampStart(|text|, start) <= j ==> !MatchAt(text, pat, j)
    ensures Find(text, pat, start) == -1
  {
  }

  /** Skipping a stretch without matches does not change what `Find` returns. */
  lemma FindSkip(text: string, pat: string, a: nat, b: nat)
    requires a <= b
    requires forall j :: a <= j < b ==> !MatchAt(text, pat, j)
    ensures Find(text, pat, a) == Find(text, pat, b)
  {
  }

  function ClampEnd(len: nat, end: int): nat
  {
    if end > len then len else if end >= 0 then end else if len + end >= 0 then len + end else 0
  }

  /** Rightmost occurrence of `pat` that ends at or before `lim`, or -1. */
  function RFindTo(text: string, pat: string, lim: nat): (r: int)
    requires lim <= |text|
    ensures r == -1 || (MatchAt(text, pat, r) && r + |pat| <= lim)
    ensures forall j :: r < j && j + |pat| <= lim ==> !MatchAt(text, pat, j)
    decreases lim
  {
    if lim < |pat| then -1
    else if text[lim - |pat|..lim] == pat then lim - |pat|
    else if lim == |pat| then -1
    else RFindTo(text, pat, lim - 1)
  }

  /** Python's `text.rfind(pat, 0, end)`. */
  function RFind(text: string, pat: string, end: int): (r: int)
    ensures r == -1 || (MatchAt(text, pat, r) && r + |pat| <= ClampEnd(|text|, end))
    ensures forall j :: r < j && j + |pat| <= ClampEnd(|text|, end) ==> !MatchAt(text, pat, j)
  {
    RFindTo(text, pat, ClampEnd(|text|, end))
  }

  /** Python's slice `s[a:b]`, negative bounds counting from the end. */
  function Slice(s: string, a: int, b: int): (r: string)
    ensures 0 <= a <= b <= |s| ==> r == s[a..b]
    ensures b < 0 && 0 <= a <= |s| + b ==> r == s[a..|s| + b]
  {
    var lo := ClampEnd(|s|, a);
    var hi := ClampEnd(|s|, b);
    if lo < hi then s[lo..hi] else []
  }

  /** Byte-wise ASCII lower-casing, as `str.lower()` does in the C locale. */
  function LowerChar(c: char): char
  {
    if 'A' <= c <= 'Z' then (c as int + 32) as char else c
  }

  function Lower(s: string): (r: string)
    ensures |r| == |s|
    ensures forall i :: 0 <= i < |s| ==> r[i] == LowerChar(s[i])
  {
    seq(|s|, i requires 0 <= i < |s| => LowerChar(s[i]))
  }

  predicate IsUpper(c: char)
  {
    'A' <= c <= 'Z'
  }

  /** The string is its own lower-case form. */
  predicate IsLowerCase(s: string)
  {
    forall i :: 0 <= i < |s| ==> !IsUpper(s[i])
  }

  lemma LowerIsLowerCase(s: string)
    ensures IsLowerCase(Lower(s))
    ensures IsLowerCase(s) <==> Lower(s) == s
  {
    if IsLowerCase(s) {
      assert forall i :: 0 <= i < |s| ==> Lower(s)[i] == s[i];
    }
    if Lower(s) == s {
      forall i | 0 <= i < |s|
        ensures !IsUpper(s[i])
      {
        assert s[i] == LowerChar(s[i]);
      }
    }
  }

  lemma LowerAppend(a: string, b: string)
    ensures Lower(a + b) == Lower(a) + Lower(b)
  {
  }

  /** No character of `s` equals `c`. */
  predicate Lacks(s: string, c: char)
  {
    forall i :: 0 <= i < |s| ==> s[i] != c
  }

  /** Python's `sep.join(parts)`. */
  function Join(parts: seq<string>, sep: string): string
  {
    if |parts| == 0 then []
    else if |parts| == 1 then parts[0]
    else parts[0] + sep + Join(parts[1..], sep)
  }

  /** Python's `s.split(sep)` for a non-empty separator. */
  function Split(s: string, sep: string): (r: seq<string>)
    requires |sep| > 0
    ensures |r| >= 1
    decreases |s|
  {
    var i := Find(s, sep, 0);
    if i == -1 then [s] else [s[..i]] + Split(s[i + |sep|..], sep)
  }

  /** Python's `s.split(sep, 1)`. */
  function SplitOnce(s: string, sep: string): (r: seq<string>)
    requires |sep| > 0
    ensures |r| == 1 <==> !Occurs(s, sep)
    ensures |r| == 1 ==> r[0] == s
    ensures |r| == 2 ==> r[0] + sep + r[1] == s && !Occurs(r[0], sep)
    ensures 1 <= |r| <= 2
  {
    var i := Find(s, sep, 0);
    if i == -1 then [s]
    else
      assert s == s[..i] + sep + s[i + |sep|..] by { assert s[i..i + |sep|] == sep; }
      NoEarlierMatch(s, sep, i);
      [s[..i], s[i + |sep|..]]
  }

  /** A prefix that ends before the first match holds no match of its own. */
  lemma NoEarlierMatch(s: string, pat: string, i: nat)
    requires i <= |s| && |pat| > 0
    requires forall j :: 0 <= j < i ==> !MatchAt(s, pat, j)
    ensures !Occurs(s[..i], pat)
  {
    forall j | 0 <= j
      ensures !MatchAt(s[..i], pat, j)
    {
      if j + |pat| <= i {
        assert s[..i][j..j + |pat|] == s[j..j + |pat|];
        assert !MatchAt(s, pat, j);
      }
    }
  }

  /** Joining the pieces of a split gives back the string. */
  lemma {:induction false} JoinSplit(s: string, sep: string)
    requires |sep| > 0
    ensures Join(Split(s, sep), sep) == s
    decreases |s|
  {
    var i := Find(s, sep, 0);
    if i != -1 {
      var rest := s[i + |sep|..];
      JoinSplit(rest, sep);
      assert s[i..i + |sep|] == sep;
      assert s == s[..i] + sep + rest;
    }
  }

  /** A match begins with the pattern's first character. */
  lemma MatchAtFirst(s: string, pat: string, j: int)
    requires |pat| > 0
    ensures MatchAt(s, pat, j) ==> s[j] == pat[0]
  {
    if MatchAt(s, pat, j) {
      assert s[j..j + |pat|][0] == pat[0];
    }
  }

  /** A match, character by character. */
  lemma MatchAtChars(text: string, pat: string, i: int)
    ensures MatchAt(text, pat, i) <==>
      0 <= i && i + |pat| <= |text| && forall j :: i <= j < i + |pat| ==> text[j] == pat[j - i]
  {
    if 0 <= i && i + |pat| <= |text| {
      if forall j :: i <= j < i + |pat| ==> text[j] == pat[j - i] {
        assert text[i..i + |pat|] == pat;
      }
      if MatchAt(text, pat, i) {
        forall j | i <= j < i + |pat|
          ensures text[j] == pat[j - i]
        {
          assert text[i..i + |pat|][j - i] == text[j];
        }
      }
    }
  }

  /** A slice, character by character. */
  lemma SliceChars(t: string, a: nat, b: nat, e: string)
    requires a <= b <= |t| && t[a..b] == e
    ensures forall j :: a <= j < b ==> t[j] == e[j - a]
  {
    forall j | a <= j < b
      ensures t[j] == e[j - a]
    {
      assert t[a..b][j - a] == t[j];
    }
  }

  /** A slice of a slice. */
  lemma SubSlice(t: string, a: nat, b: nat, e: string, i: nat, j: nat)
    requires a <= b <= |t| && t[a..b] == e && i <= j <= |e|
    ensures t[a + i..a + j] == e[i..j]
  {
    SliceChars(t, a, b, e);
    assert forall m :: 0 <= m < j - i ==> t[a + i..a + j][m] == t[a + i + m] == e[i + m] == e[i..j][m];
  }

  /** A one-character pattern matches where that character sits. */
  lemma MatchOne(text: string, c: char, i: int)
    ensures MatchAt(text, [c], i) <==> 0 <= i < |text| && text[i] == c
  {
    MatchAtChars(text, [c], i);
  }

  /** A separator cannot start inside a piece that lacks the separator's first character. */
  lemma FindAfterPiece(p: string, sep: string, rest: string)
    requires |sep| > 0 && Lacks(p, sep[0])
    ensures Find(p + sep + rest, sep, 0) == |p|
  {
    var s := p + sep + rest;
    forall j | 0 <= j < |p|
      ensures !MatchAt(s, sep, j)
    {
      MatchAtFirst(s, sep, j);
      assert s[j] == p[j];
    }
    assert s[|p|..|p| + |sep|] == sep;
    FindIs(s, sep, 0, |p|);
  }

  lemma NoMatchInPiece(p: string, sep: string)
    requires |sep| > 0 && Lacks(p, sep[0])
    ensures Find(p, sep, 0) == -1
  {
    forall j | 0 <= j
      ensures !MatchAt(p, sep, j)
    {
      MatchAtFirst(p, sep, j);
    }
    FindNone(p, sep, 0);
  }

  /** Splitting a join gives back the pieces, when no piece holds the separator's first character. */
  lemma {:induction false} SplitJoin(parts: seq<string>, sep: string)
    requires |sep| > 0 && |parts| >= 1
    requires forall k :: 0 <= k < |parts| ==> Lacks(parts[k], sep[0])
    ensures Split(Join(parts, sep), sep) == parts
    decreases |parts|
  {
    if |parts| == 1 {
      NoMatchInPiece(parts[0], sep);
    } else {
      SplitPiece(parts[0], sep, Join(parts[1..], sep));
      SplitJoin(parts[1..], sep);
      assert parts == [parts[0]] + parts[1..];
    }
  }

  /** Splitting a piece, the separator and a rest. */
  lemma SplitPiece(p: string, sep: string, rest: string)
    requires |sep| > 0 && Lacks(p, sep[0])
    ensures Split(p + sep + rest, sep) == [p] + Split(rest, sep)
  {
    var s := p + sep + rest;
    FindAfterPiece(p, sep, rest);
    assert s[..|p|] == p;
    assert s[|p| + |sep|..] == rest;
  }

  /** Python's `s.rstrip(chars)`. */
  function RStrip(s: string, chars: set<char>): (r: string)
    ensures |r| <= |s| && r == s[..|r|]
    ensures |r| > 0 ==> r[|r| - 1] !in chars
    ensures forall i :: |r| <= i < |s| ==> s[i] in chars
  {
    if |s| > 0 && s[|s| - 1] in chars then RStrip(s[..|s| - 1], chars) else s
  }

  /** The characters Python 2's `str.strip()` removes. */
  const Whitespace: set<char> := {' ', '\t', '\n', '\r', '\U{B}', '\U{C}'}

  /** `not s.strip()`: the string is empty or all whitespace. */
  predicate IsBlank(s: string)
  {
    forall i :: 0 <= i < |s| ==> s[i] in Whitespace
  }
}

=== FILE: taxdump.dfy ===
/** The pure part of `Taxonomy.ParseTaxdumpFile`: the lines of the NCBI
    `names.dmp` and `nodes.dmp` files become one taxon record
    `id, parent, rank, names...` and one class record `id, classes...` per
    taxon, the names ordered by a stable sort on name-class codes that puts
    "scientific name" first. */
module TaxDump {
  import opened Wrappers
  import opened Strings

  /** The column separator of the dump files. */
  const Column: string := "\t|\t"
  /** What `rstrip` removes from the end of a `names.dmp` line. */
  const LineEnd: set<char> := {'\t', '\n', '|'}
  /** The name class forced to code 0. */
  const Scientific: string := "scientific name"
  /** How many codes `iter(range(255))` hands out. */
  const MaxCodes: nat := 255

  /** Why a compilation stops: a line that does not unpack into its columns
      (`ValueError`), a taxon without a `nodes.dmp` line (`KeyError`), or a
      256th name class (`StopIteration`). */
  datatype Failure = Unpack(line: string) | MissingNode(id: string) | TooManyClasses

  /** One name of a taxon and its name class. */
  datatype Alias = Alias(text: string, kind: string)

  // ----- names.dmp -----

  /** One non-blank `names.dmp` line: the id and the alias it adds; the
      unique name, when there is one, stands in for the name. */
  function ParseNamesLine(line: string): Result<(string, Alias), Failure>
  {
    var parts := Split(RStrip(line, LineEnd), Column);
    if |parts| != 4 then Err(Unpack(line))
    else Ok((parts[0], Alias(if parts[2] != [] then parts[2] else parts[1], parts[3])))
  }

  /** A `names.dmp` line as NCBI writes it. */
  function NamesLine(id: string, name: string, unique: string, kind: string): string
  {
    Join([id, name, unique, kind], Column) + "\t|\n"
  }

  /** Stripping characters of the set off the end stops at the first one outside it. */
  lemma {:induction false} RStripTail(s: string, tail: string, chars: set<char>)
    requires |s| > 0 && s[|s| - 1] !in chars
    requires forall i :: 0 <= i < |tail| ==> tail[i] in chars
    ensures RStrip(s + tail, chars) == s
    decreases |tail|
  {
    if tail == [] {
      assert s + tail == s;
    } else {
      var t' := tail[..|tail| - 1];
      assert (s + tail)[..|s + tail| - 1] == s + t';
      RStripTail(s, t', chars);
    }
  }

  /** Parsing the line NCBI writes for an alias gives the alias back, when
      no column holds a tab and the class does not end in a character
      `rstrip` removes. */
  lemma NamesLineRoundTrip(id: string, name: string, unique: string, kind: string)
    requires Lacks(id, '\t') && Lacks(name, '\t') && Lacks(unique, '\t') && Lacks(kind, '\t')
    requires |kind| > 0 && kind[|kind| - 1] !in LineEnd
    ensures !IsBlank(NamesLine(id, name, unique, kind))
    ensures ParseNamesLine(NamesLine(id, name, unique, kind)) ==
      Ok((id, Alias(if unique != [] then unique else name, kind)))
  {
    var parts := [id, name, unique, kind];
    JoinFour(id, name, unique, kind);
    var line := NamesLine(id, name, unique, kind);
    RStripTail(Join(parts, Column), "\t|\n", LineEnd);
    assert RStrip(line, LineEnd) == Join(parts, Column);
    SplitJoin(parts, Column);
    assert line[|Join(parts, Column)| + 1] == '|';
  }

  /** The four columns of a `names.dmp` line, joined. */
  lemma JoinFour(id: string, name: string, unique: string, kind: string)
    requires |kind| > 0
    ensures var j := Join([id, name, unique, kind], Column);
      |j| > 0 && j[|j| - 1] == kind[|kind| - 1]
  {
    var parts := [id, name, unique, kind];
    assert Join([unique, kind], Column) == unique + Column + kind by {
      assert [unique, kind][1..] == [kind];
    }
    assert Join([name, unique, kind], Column) == name + Column + (unique + Column + kind) by {
      assert [name, unique, kind][1..] == [unique, kind];
    }
    assert Join(parts, Column) == id + Column + (name + Column + (unique + Column + kind)) by {
      assert parts[1..] == [name, unique, kind];
    }
  }

  /** `namesDict`: the aliases of every id in line order, and the ids in
      order of first appearance. */
  datatype NamesDict = NamesDict(ids: seq<string>, aliases: map<string, seq<Alias>>)

  ghost predicate Distinct<T>(s: seq<T>)
  {
    forall i, j :: 0 <= i < j < |s| ==> s[i] != s[j]
  }

  /** The id list and the dictionary hold the same ids, each once. */
  ghost predicate DictOk(d: NamesDict)
  {
    (forall x :: x in d.ids <==> x in d.aliases) && Distinct(d.ids)
  }

  /** The aliases already recorded for `id`: `namesDict[id]` of a `defaultdict(list)`. */
  function AliasesIn(d: NamesDict, id: string): seq<Alias>
  {
    if id in d.aliases then d.aliases[id] else []
  }

  /** `namesDict[id].append(alias)`. */
  function AddAlias(d: NamesDict, id: string, a: Alias): (r: NamesDict)
    ensures DictOk(d) ==> DictOk(r)
    ensures r.aliases.Keys == d.aliases.Keys + {id}
    ensures forall x :: AliasesIn(r, x) == AliasesIn(d, x) + (if x == id then [a] else [])
  {
    if id in d.aliases then d.(aliases := d.aliases[id := d.aliases[id] + [a]])
    else NamesDict(d.ids + [id], d.aliases[id := [a]])
  }

  /** The loop over `names.dmp`: blank lines are skipped, the first line
      that does not unpack stops it. */
  function ParseNames(d: NamesDict, lines: seq<string>): (r: Result<NamesDict, Failure>)
    ensures DictOk(d) && r.Ok? ==> DictOk(r.value)
    ensures r.Ok? ==> d.aliases.Keys <= r.value.aliases.Keys
    decreases |lines|
  {
    if lines == [] then Ok(d)
    else if IsBlank(lines[0]) then ParseNames(d, lines[1..])
    else
      match ParseNamesLine(lines[0])
      case Err(e) => Err(e)
      case Ok((id, a)) => ParseNames(AddAlias(d, id, a), lines[1..])
  }

  /** Every non-blank line unpacks. */
  ghost predicate NamesParse(lines: seq<string>)
  {
    forall i :: 0 <= i < |lines| && !IsBlank(lines[i]) ==> ParseNamesLine(lines[i]).Ok?
  }

  /** The aliases the lines give `id`, in line order. */
  ghost function AliasesOf(lines: seq<string>, id: string): seq<Alias>
    decreases |lines|
  {
    if lines == [] then []
    else
      var r := ParseNamesLine(lines[0]);
      (if !IsBlank(lines[0]) && r.Ok? && r.value.0 == id then [r.value.1] else []) + AliasesOf(lines[1..], id)
  }

  /** The names loop succeeds exactly when every non-blank line unpacks. */
  lemma {:induction false} ParseNamesOk(d: NamesDict, lines: seq<string>)
    ensures ParseNames(d, lines).Ok? <==> NamesParse(lines)
    decreases |lines|
  {
    if lines != [] {
      assert forall i :: 1 <= i < |lines| ==> lines[1..][i - 1] == lines[i];
      if IsBlank(lines[0]) {
        ParseNamesOk(d, lines[1..]);
      } else if ParseNamesLine(lines[0]).Ok? {
        var (id, a) := ParseNamesLine(lines[0]).value;
        ParseNamesOk(AddAlias(d, id, a), lines[1..]);
      }
    }
  }

  /** After the names loop every id holds the aliases its lines give, in
      line order, after the ones it held already. */
  lemma {:induction false} ParseNamesAliases(d: NamesDict, lines: seq<string>, x: string)
    requires ParseNames(d, lines).Ok?
    ensures AliasesIn(ParseNames(d, lines).value, x) == AliasesIn(d, x) + AliasesOf(lines, x)
    ensures x in ParseNames(d, lines).value.aliases <==> x in d.aliases || AliasesOf(lines, x) != []
    decreases |lines|
  {
    if lines != [] {
      if IsBlank(lines[0]) {
        ParseNamesAliases(d, lines[1..], x);
      } else {
        var id, a := NamesStep(d, lines, x);
        ParseNamesAliases(AddAlias(d, id, a), lines[1..], x);
      }
    }
  }

  /** One non-blank line of the names loop, seen from the aliases of `x`. */
  lemma NamesStep(d: NamesDict, lines: seq<string>, x: string) returns (id: string, a: Alias)
    requires lines != [] && !IsBlank(lines[0]) && ParseNames(d, lines).Ok?
    ensures ParseNamesLine(lines[0]) == Ok((id, a))
    ensures ParseNames(d, lines) == ParseNames(AddAlias(d, id, a), lines[1..])
    ensures AliasesOf(lines, x) == (if id == x then [a] else []) + AliasesOf(lines[1..], x)
  {
    id, a := ParseNamesLine(lines[0]).value.0, ParseNamesLine(lines[0]).value.1;
  }

  // ----- nodes.dmp -----

  /** One non-blank `nodes.dmp` line: the id, its parent and its rank, the
      first three columns; more columns are ignored, fewer do not unpack. */
  function ParseNodesLine(line: string): Result<(string, (string, string)), Failure>
  {
    var parts := Split(line, Column);
    if |parts| < 3 then Err(Unpack(line)) else Ok((parts[0], (parts[1], parts[2])))
  }

  /** A `nodes.dmp` line parses to its first three columns, whatever
      follows them, when none of the three holds a tab. */
  lemma NodesLineRoundTrip(id: string, parent: string, rank: string, rest: string)
    requires Lacks(id, '\t') && Lacks(parent, '\t') && Lacks(rank, '\t')
    ensures ParseNodesLine(id + Column + (parent + Column + (rank + Column + rest))) == Ok((id, (parent, rank)))
  {
    var tail := rank + Column + rest;
    var mid := parent + Column + tail;
    SplitPiece(rank, Column, rest);
    SplitPiece(parent, Column, tail);
    SplitPiece(id, Column, mid);
    var parts := Split(id + Column + mid, Column);
    assert parts == [id] + ([parent] + ([rank] + Split(rest, Column)));
    assert parts[0] == id && parts[1] == parent && parts[2] == rank;
  }

  /** The loop over `nodes.dmp`: a later line for an id replaces an earlier one. */
  function ParseNodes(m: map<string, (string, string)>, lines: seq<string>): (r: Result<map<string, (string, string)>, Failure>)
    ensures r.Ok? ==> m.Keys <= r.value.Keys
    decreases |lines|
  {
    if lines == [] then Ok(m)
    else if IsBlank(lines[0]) then ParseNodes(m, lines[1..])
    else
      match ParseNodesLine(lines[0])
      case Err(e) => Err(e)
      case Ok((id, node)) => ParseNodes(m[id := node], lines[1..])
  }

  /** Every non-blank line unpacks. */
  ghost predicate NodesParse(lines: seq<string>)
  {
    forall i :: 0 <= i < |lines| && !IsBlank(lines[i]) ==> ParseNodesLine(lines[i]).Ok?
  }

  /** The parent and rank the last line for `id` gives, if any line does. */
  ghost function LastNode(lines: seq<string>, id: string): Option<(string, string)>
    decreases |lines|
  {
    if lines == [] then None
    else
      match LastNode(lines[1..], id)
      case Some(n) => Some(n)
      case None =>
        var r := ParseNodesLine(lines[0]);
        if !IsBlank(lines[0]) && r.Ok? && r.value.0 == id then Some(r.value.1) else None
  }

  /** The nodes loop succeeds exactly when every non-blank line unpacks, and
      then every id maps to what its last line gives, or to what it mapped
      to before when no line names it. */
  lemma {:induction false} ParseNodesSpec(m: map<string, (string, string)>, lines: seq<string>)
    ensures ParseNodes(m, lines).Ok? <==> NodesParse(lines)
    ensures ParseNodes(m, lines).Ok? ==> forall x ::
      && (x in ParseNodes(m, lines).value <==> x in m || LastNode(lines, x).Some?)
      && (x in ParseNodes(m, lines).value ==>
            ParseNodes(m, lines).value[x] == if LastNode(lines, x).Some? then LastNode(lines, x).value else m[x])
    decreases |lines|
  {
    if lines != [] {
      assert forall i :: 1 <= i < |lines| ==> lines[1..][i - 1] == lines[i];
      if IsBlank(lines[0]) {
        ParseNodesSpec(m, lines[1..]);
      } else if ParseNodesLine(lines[0]).Ok? {
        var (id, node) := ParseNodesLine(lines[0]).value;
        ParseNodesSpec(m[id := node], lines[1..]);
      }
    }
  }

  // ----- name-class codes -----

  /** The codes of `name_class_codes` once "scientific name" is forced in:
      "scientific name" has code 0, codes are handed out without gaps, no
      two classes share one, and at most 255 exist. */
  ghost predicate CodesOk(codes: map<string, nat>)
  {
    && Scientific in codes && codes[Scientific] == 0
    && |codes| <= MaxCodes
    && (forall c :: c in codes ==> codes[c] < |codes|)
    && (forall c, c' :: c in codes && c' in codes && c != c' ==> codes[c] != codes[c'])
  }

  /** A later state of the codes: every class keeps its code. */
  ghost predicate Grows(codes: map<string, nat>, codes': map<string, nat>)
  {
    codes.Keys <= codes'.Keys && forall c :: c in codes ==> codes'[c] == codes[c]
  }

  /** `name_class_codes["scientific name"]` on the fresh `defaultdict`. */
  function FirstCodes(): (codes: map<string, nat>)
    ensures CodesOk(codes) && codes.Keys == {Scientific}
  {
    map[Scientific := 0]
  }

  /** `name_class_codes[kind]`: a known class keeps its code, a new class
      takes the next code, and once all 255 are used a new class raises. */
  function CodeOf(codes: map<string, nat>, kind: string): (r: Result<(nat, map<string, nat>), Failure>)
    ensures r.Err? <==> kind !in codes && |codes| >= MaxCodes
    ensures r.Err? ==> r.error == TooManyClasses
    ensures r.Ok? ==> Grows(codes, r.value.1) && kind in r.value.1 && r.value.1[kind] == r.value.0
    ensures r.Ok? ==> r.value.1.Keys == codes.Keys + {kind}
    ensures r.Ok? && CodesOk(codes) ==> CodesOk(r.value.1)
  {
    if kind in codes then Ok((codes[kind], codes))
    else if |codes| < MaxCodes then Ok((|codes|, codes[kind := |codes|]))
    else Err(TooManyClasses)
  }

  /** Every alias carries the code of its class. */
  ghost predicate Keyed(s: seq<(nat, Alias)>, codes: map<string, nat>)
  {
    forall i :: 0 <= i < |s| ==> s[i].1.kind in codes && s[i].0 == codes[s[i].1.kind]
  }

  /** The aliases of a keyed list. */
  function Strip(s: seq<(nat, Alias)>): (r: seq<Alias>)
    ensures |r| == |s| && forall i :: 0 <= i < |s| ==> r[i] == s[i].1
  {
    seq(|s|, i requires 0 <= i < |s| => s[i].1)
  }

  /** The sort keys of a taxon's aliases, looked up in list order as
      `sorted` does before it compares anything. */
  function KeyAll(codes: map<string, nat>, aliases: seq<Alias>): (r: Result<(seq<(nat, Alias)>, map<string, nat>), Failure>)
    ensures r.Ok? ==> Grows(codes, r.value.1) && Keyed(r.value.0, r.value.1) && Strip(r.value.0) == aliases
    ensures r.Ok? && CodesOk(codes) ==> CodesOk(r.value.1)
    ensures r.Err? ==> r.error == TooManyClasses
    decreases |aliases|
  {
    if aliases == [] then Ok(([], codes))
    else
      match CodeOf(codes, aliases[0].kind)
      case Err(e) => Err(e)
      case Ok((c, codes1)) =>
        match KeyAll(codes1, aliases[1..])
        case Err(e) => Err(e)
        case Ok((rest, codes2)) => Ok(([(c, aliases[0])] + rest, codes2))
  }

  // ----- the stable sort -----

  predicate SortedByKey<T>(s: seq<(nat, T)>)
  {
    forall i :: 0 <= i < |s| - 1 ==> s[i].0 <= s[i + 1].0
  }

  /** The elements with key `c`, in order. */
  function WithKey<T>(s: seq<(nat, T)>, c: nat): seq<(nat, T)>
    decreases |s|
  {
    if s == [] then [] else (if s[0].0 == c then [s[0]] else []) + WithKey(s[1..], c)
  }

  /** The first key of a sorted list is its least. */
  lemma {:induction false} SortedMin<T>(s: seq<(nat, T)>, i: nat)
    requires SortedByKey(s) && i < |s|
    ensures s[0].0 <= s[i].0
  {
    if i > 0 {
      SortedMin(s, i - 1);
    }
  }

  /** A key below the least has no elements. */
  lemma {:induction false} WithKeyBelow<T>(s: seq<(nat, T)>, c: nat)
    requires SortedByKey(s) && |s| > 0 && c < s[0].0
    ensures WithKey(s, c) == []
    decreases |s|
  {
    if |s| > 1 {
      WithKeyBelow(s[1..], c);
    }
  }

  /** Filtering by key distributes over concatenation. */
  lemma {:induction false} WithKeyAppend<T>(a: seq<(nat, T)>, b: seq<(nat, T)>, c: nat)
    ensures WithKey(a + b, c) == WithKey(a, c) + WithKey(b, c)
    decreases |a|
  {
    if a == [] {
      assert a + b == b;
    } else {
      var head := if a[0].0 == c then [a[0]] else [];
      assert (a + b)[0] == a[0] && (a + b)[1..] == a[1..] + b;
      assert WithKey(a + b, c) == head + WithKey(a[1..] + b, c);
      WithKeyAppend(a[1..], b, c);
      assert head + (WithKey(a[1..], c) + WithKey(b, c)) == (head + WithKey(a[1..], c)) + WithKey(b, c);
    }
  }

  /** Insertion after every element whose key is not larger. */
  function InsertByKey<T>(x: (nat, T), s: seq<(nat, T)>): (r: seq<(nat, T)>)
    requires SortedByKey(s)
    ensures SortedByKey(r)
    ensures |r| == |s| + 1 && (r[0] == x || (|s| > 0 && r[0] == s[0]))
    decreases |s|
  {
    if s == [] then [x]
    else if x.0 < s[0].0 then [x] + s
    else [s[0]] + InsertByKey(x, s[1..])
  }

  /** Filtering a list that starts with `a`. */
  lemma WithKeyCons<T>(a: (nat, T), s: seq<(nat, T)>, c: nat)
    ensures WithKey([a] + s, c) == (if a.0 == c then [a] else []) + WithKey(s, c)
  {
    assert ([a] + s)[0] == a && ([a] + s)[1..] == s;
  }

  /** Insertion adds `x` and nothing else. */
  lemma {:induction false} InsertCount<T>(x: (nat, T), s: seq<(nat, T)>)
    requires SortedByKey(s)
    ensures multiset(InsertByKey(x, s)) == multiset(s) + multiset{x}
    decreases |s|
  {
    if s != [] && x.0 >= s[0].0 {
      InsertCount(x, s[1..]);
      assert s == [s[0]] + s[1..];
    }
  }

  /** Insertion puts `x` after the elements with its key. */
  lemma {:induction false} InsertKeys<T>(x: (nat, T), s: seq<(nat, T)>, c: nat)
    requires SortedByKey(s)
    ensures WithKey(InsertByKey(x, s), c) == WithKey(s, c) + (if x.0 == c then [x] else [])
    decreases |s|
  {
    if s == [] {
      WithKeyCons(x, [], c);
    } else if x.0 < s[0].0 {
      if x.0 == c {
        WithKeyBelow(s, c);
      }
      WithKeyCons(x, s, c);
    } else {
      InsertKeys(x, s[1..], c);
      WithKeyCons(s[0], InsertByKey(x, s[1..]), c);
      WithKeyCons(s[0], s[1..], c);
      assert s == [s[0]] + s[1..];
    }
  }

  /** Python's `sorted(s, key=...)`, a stable sort. */
  function SortByKey<T>(s: seq<(nat, T)>): (r: seq<(nat, T)>)
    ensures SortedByKey(r) && |r| == |s|
    decreases |s|
  {
    if s == [] then [] else InsertByKey(s[|s| - 1], SortByKey(s[..|s| - 1]))
  }

  /** The sort keeps the elements. */
  lemma {:induction false} SortCount<T>(s: seq<(nat, T)>)
    ensures multiset(SortByKey(s)) == multiset(s)
    decreases |s|
  {
    if s != [] {
      var init, last := s[..|s| - 1], s[|s| - 1];
      assert s == init + [last];
      SortCount(init);
      InsertCount(last, SortByKey(init));
    }
  }

  /** Elements with equal keys stay in their original order. */
  lemma {:induction false} SortKeys<T>(s: seq<(nat, T)>, c: nat)
    ensures WithKey(SortByKey(s), c) == WithKey(s, c)
    decreases |s|
  {
    if s != [] {
      var init, last := s[..|s| - 1], s[|s| - 1];
      assert s == init + [last];
      WithKeyAppend(init, [last], c);
      SortKeys(init, c);
      InsertKeys(last, SortByKey(init), c);
      WithKeyCons(last, [], c);
    }
  }

  // ----- emitting -----

  /** The two records the loop writes for one taxon. */
  datatype Taxon = Taxon(data: seq<string>, info: seq<string>)

  /** The aliases of class `kind`, in order. */
  function OfKind(aliases: seq<Alias>, kind: string): seq<Alias>
    decreases |aliases|
  {
    if aliases == [] then []
    else (if aliases[0].kind == kind then [aliases[0]] else []) + OfKind(aliases[1..], kind)
  }

  /** The names of a keyed list. */
  function Texts(s: seq<(nat, Alias)>): (r: seq<string>)
    ensures |r| == |s| && forall i :: 0 <= i < |s| ==> r[i] == s[i].1.text
  {
    seq(|s|, i requires 0 <= i < |s| => s[i].1.text)
  }

  /** The classes of a keyed list. */
  function Kinds(s: seq<(nat, Alias)>): (r: seq<string>)
    ensures |r| == |s| && forall i :: 0 <= i < |s| ==> r[i] == s[i].1.kind
  {
    seq(|s|, i requires 0 <= i < |s| => s[i].1.kind)
  }

  /** The aliases a taxon's two records hold side by side: the name after
      `id, parent, rank` with the class after `id`. */
  function Paired(t: Taxon): (r: seq<Alias>)
    requires |t.info| >= 1 && |t.data| == |t.info| + 2
    ensures |r| == |t.info| - 1 && forall i :: 0 <= i < |r| ==> r[i] == Alias(t.data[i + 3], t.info[i + 1])
  {
    seq(|t.info| - 1, i requires 0 <= i < |t.info| - 1 => Alias(t.data[i + 3], t.info[i + 1]))
  }

  /** The shape of a taxon's records: `id, parent, rank` and one name per
      alias, and `id` and one class per alias. */
  ghost predicate Header(t: Taxon, id: string, aliases: seq<Alias>, node: (string, string))
  {
    && |t.info| == |aliases| + 1 && |t.data| == |t.info| + 2
    && t.data[0] == id && t.data[1] == node.0 && t.data[2] == node.1 && t.info[0] == id
  }

  /** The order of a taxon's aliases: every alias written once, the aliases
      of one class in line order, and a scientific name, if the taxon has
      one, first. */
  ghost predicate Ordered(t: Taxon, aliases: seq<Alias>)
  {
    && |t.info| >= 1 && |t.data| == |t.info| + 2
    && (forall kind :: OfKind(Paired(t), kind) == OfKind(aliases, kind))
    && (|OfKind(aliases, Scientific)| > 0 ==>
          |t.info| >= 2 && t.info[1] == Scientific && t.data[3] == OfKind(aliases, Scientific)[0].text)
  }

  /** No two classes share a code. */
  ghost predicate Injective(codes: map<string, nat>)
  {
    forall c, c' :: c in codes && c' in codes && c != c' ==> codes[c] != codes[c']
  }

  /** Filtering a keyed list by the code of a class is filtering its aliases by the class. */
  lemma {:induction false} KindFilter(s: seq<(nat, Alias)>, codes: map<string, nat>, kind: string)
    requires Keyed(s, codes) && Injective(codes) && kind in codes
    ensures OfKind(Strip(s), kind) == Strip(WithKey(s, codes[kind]))
    decreases |s|
  {
    if s != [] {
      KindFilter(s[1..], codes, kind);
      assert Strip(s) == [s[0].1] + Strip(s[1..]);
      assert Strip(s)[1..] == Strip(s[1..]);
      if s[0].0 == codes[kind] {
        assert Strip([s[0]] + WithKey(s[1..], codes[kind])) == [s[0].1] + Strip(WithKey(s[1..], codes[kind]));
      }
    }
  }

  /** A class without a code has no aliases in a keyed list. */
  lemma {:induction false} KindAbsent(s: seq<(nat, Alias)>, codes: map<string, nat>, kind: string)
    requires Keyed(s, codes) && kind !in codes
    ensures OfKind(Strip(s), kind) == []
    decreases |s|
  {
    if s != [] {
      KindAbsent(s[1..], codes, kind);
      assert Strip(s)[1..] == Strip(s[1..]);
    }
  }

  /** A class filter that finds something finds an alias of that class. */
  lemma {:induction false} OfKindFound(aliases: seq<Alias>, kind: string) returns (j: nat)
    requires |OfKind(aliases, kind)| > 0
    ensures j < |aliases| && aliases[j].kind == kind
    decreases |aliases|
  {
    if aliases[0].kind == kind {
      j := 0;
    } else {
      var j' := OfKindFound(aliases[1..], kind);
      j := j' + 1;
    }
  }

  /** The sorted aliases of a keyed list, as the records hold them. */
  lemma SortedOrder(keyed: seq<(nat, Alias)>, codes: map<string, nat>, t: Taxon)
    requires Keyed(keyed, codes) && Injective(codes)
    requires |t.data| >= 3 && t.data == t.data[..3] + Texts(SortByKey(keyed))
    requires |t.info| >= 1 && t.info == [t.info[0]] + Kinds(SortByKey(keyed))
    ensures |t.data| == |t.info| + 2
    ensures forall kind :: OfKind(Paired(t), kind) == OfKind(Strip(keyed), kind)
  {
    var sorted := SortByKey(keyed);
    assert Paired(t) == Strip(sorted);
    forall i | 0 <= i < |sorted|
      ensures sorted[i].1.kind in codes && sorted[i].0 == codes[sorted[i].1.kind]
    {
      SortCount(keyed);
      assert sorted[i] in multiset(sorted);
    }
    forall kind
      ensures OfKind(Paired(t), kind) == OfKind(Strip(keyed), kind)
    {
      if kind in codes {
        SortKeys(keyed, codes[kind]);
        KindFilter(sorted, codes, kind);
        KindFilter(keyed, codes, kind);
      } else {
        KindAbsent(sorted, codes, kind);
        KindAbsent(keyed, codes, kind);
      }
    }
  }

  /** With "scientific name" at code 0, a scientific name sorts first. */
  lemma ScientificSorted(keyed: seq<(nat, Alias)>, codes: map<string, nat>, t: Taxon)
    requires Keyed(keyed, codes)
    requires |t.data| >= 3 && t.data == t.data[..3] + Texts(SortByKey(keyed))
    requires |t.info| >= 1 && t.info == [t.info[0]] + Kinds(SortByKey(keyed))
    ensures CodesOk(codes) ==> Ordered(t, Strip(keyed))
  {
    if !CodesOk(codes) {
      return;
    }
    SortedOrder(keyed, codes, t);
    var sorted := SortByKey(keyed);
    assert Paired(t) == Strip(sorted);
    if |OfKind(Strip(keyed), Scientific)| > 0 {
      var j := OfKindFound(Paired(t), Scientific);
      SortCount(keyed);
      assert sorted[j] in multiset(keyed);
      assert sorted[j].0 == 0;
      SortedMin(sorted, j);
      assert sorted[0] in multiset(keyed);
      assert Paired(t)[0].kind == Scientific;
    }
  }

  /** The classes after the id all have codes, and their codes never
      decrease along the record. */
  ghost predicate ByCode(t: Taxon, codes: map<string, nat>)
  {
    && (forall i :: 1 <= i < |t.info| ==> t.info[i] in codes)
    && (forall i :: 1 <= i < |t.info| - 1 ==> codes[t.info[i]] <= codes[t.info[i + 1]])
  }

  /** The classes of a sorted keyed list are in code order. */
  lemma SortedByCode(keyed: seq<(nat, Alias)>, codes: map<string, nat>, t: Taxon)
    requires Keyed(keyed, codes)
    requires |t.info| >= 1 && t.info == [t.info[0]] + Kinds(SortByKey(keyed))
    ensures ByCode(t, codes)
  {
    var sorted := SortByKey(keyed);
    forall i | 0 <= i < |sorted|
      ensures sorted[i].1.kind in codes && sorted[i].0 == codes[sorted[i].1.kind]
    {
      SortCount(keyed);
      assert sorted[i] in multiset(sorted);
    }
    forall i | 1 <= i < |t.info|
      ensures t.info[i] == sorted[i - 1].1.kind
    {
    }
  }

  /** Code order survives later codes being handed out. */
  lemma ByCodeGrows(t: Taxon, codes: map<string, nat>, codes': map<string, nat>)
    requires ByCode(t, codes) && Grows(codes, codes')
    ensures ByCode(t, codes')
  {
    forall i | 1 <= i < |t.info| - 1
      ensures codes'[t.info[i]] <= codes'[t.info[i + 1]]
    {
      assert t.info[i] in codes && t.info[i + 1] in codes;
    }
  }

  /** The records of taxon `id`: its parent and rank come from `nodes.dmp`
      (`KeyError` when absent), its aliases are sorted by class code. */
  function EmitTaxon(codes: map<string, nat>, id: string, aliases: seq<Alias>, nodes: map<string, (string, string)>): (r: Result<(Taxon, map<string, nat>), Failure>)
    ensures id !in nodes ==> r == Err(MissingNode(id))
    ensures r.Err? && id in nodes ==> r.error == TooManyClasses
    ensures r.Ok? ==> Grows(codes, r.value.1) && Header(r.value.0, id, aliases, nodes[id])
    ensures r.Ok? && CodesOk(codes) ==> CodesOk(r.value.1) && Ordered(r.value.0, aliases)
    ensures r.Ok? ==> ByCode(r.value.0, r.value.1)
  {
    if id !in nodes then Err(MissingNode(id))
    else
      match KeyAll(codes, aliases)
      case Err(e) => Err(e)
      case Ok((keyed, codes')) =>
        var sorted := SortByKey(keyed);
        var t := Taxon([id, nodes[id].0, nodes[id].1] + Texts(sorted), [id] + Kinds(sorted));
        ScientificSorted(keyed, codes', t);
        SortedByCode(keyed, codes', t);
        Ok((t, codes'))
  }

  /** What the compilation leaves behind: the records written to the taxon
      file and to the class file, and the failure that stopped it, if any.
      Records written before a failure stay written. */
  datatype Dump = Dump(taxa: seq<Taxon>, failure: Option<Failure>)

  /** The records of the taxon file. */
  function DataRecords(taxa: seq<Taxon>): (rs: seq<seq<string>>)
    ensures |rs| == |taxa| && forall i :: 0 <= i < |taxa| ==> rs[i] == taxa[i].data
  {
    seq(|taxa|, i requires 0 <= i < |taxa| => taxa[i].data)
  }

  /** The records of the class file. */
  function InfoRecords(taxa: seq<Taxon>): (rs: seq<seq<string>>)
    ensures |rs| == |taxa| && forall i :: 0 <= i < |taxa| ==> rs[i] == taxa[i].info
  {
    seq(|taxa|, i requires 0 <= i < |taxa| => taxa[i].info)
  }

  /** The loop over `namesDict.items()` in the given order. */
  function EmitAll(codes: map<string, nat>, order: seq<string>, d: NamesDict, nodes: map<string, (string, string)>): (r: Dump)
    requires forall x :: x in order ==> x in d.aliases
    ensures |r.taxa| <= |order|
    ensures r.failure.None? <==> |r.taxa| == |order|
    ensures r.failure.Some? ==>
      r.failure.value == if order[|r.taxa|] in nodes then TooManyClasses else MissingNode(order[|r.taxa|])
    decreases |order|
  {
    if order == [] then Dump([], None)
    else
      match EmitTaxon(codes, order[0], d.aliases[order[0]], nodes)
      case Err(e) => Dump([], Some(e))
      case Ok((t, codes')) =>
        var rest := EmitAll(codes', order[1..], d, nodes);
        Dump([t] + rest.taxa, rest.failure)
  }

  /** The i-th taxon written is the one of the i-th id: its header is the
      id's node and its classes are ordered, given well-formed codes. */
  lemma {:induction false} EmitAt(codes: map<string, nat>, order: seq<string>, d: NamesDict, nodes: map<string, (string, string)>, i: nat)
    requires forall x :: x in order ==> x in d.aliases
    requires i < |EmitAll(codes, order, d, nodes).taxa|
    ensures order[i] in nodes
    ensures Header(EmitAll(codes, order, d, nodes).taxa[i], order[i], d.aliases[order[i]], nodes[order[i]])
    ensures CodesOk(codes) ==> Ordered(EmitAll(codes, order, d, nodes).taxa[i], d.aliases[order[i]])
    decreases i
  {
    var r := EmitTaxon(codes, order[0], d.aliases[order[0]], nodes);
    assert r.Ok?;
    var t := r.value.0;
    var codes' := r.value.1;
    var rest := EmitAll(codes', order[1..], d, nodes);
    assert EmitAll(codes, order, d, nodes).taxa == [t] + rest.taxa;
    if i > 0 {
      EmitAt(codes', order[1..], d, nodes, i - 1);
      assert order[1..][i - 1] == order[i];
    }
  }

  /** The codes once the loop over `order` has stopped. */
  ghost function CodesAfter(codes: map<string, nat>, order: seq<string>, d: NamesDict, nodes: map<string, (string, string)>): map<string, nat>
    requires forall x :: x in order ==> x in d.aliases
    decreases |order|
  {
    if order == [] then codes
    else
      match EmitTaxon(codes, order[0], d.aliases[order[0]], nodes)
      case Err(_) => codes
      case Ok((_, codes')) => CodesAfter(codes', order[1..], d, nodes)
  }

  /** The codes only grow over the loop and stay well-formed. */
  lemma {:induction false} CodesAfterGrows(codes: map<string, nat>, order: seq<string>, d: NamesDict, nodes: map<string, (string, string)>)
    requires forall x :: x in order ==> x in d.aliases
    ensures Grows(codes, CodesAfter(codes, order, d, nodes))
    ensures CodesOk(codes) ==> CodesOk(CodesAfter(codes, order, d, nodes))
    decreases |order|
  {
    if order != [] {
      var r := EmitTaxon(codes, order[0], d.aliases[order[0]], nodes);
      if r.Ok? {
        CodesAfterGrows(r.value.1, order[1..], d, nodes);
      }
    }
  }

  /** Every taxon the loop writes has its classes in the order of the codes
      the loop ends with. */
  lemma {:induction false} EmitByCode(codes: map<string, nat>, order: seq<string>, d: NamesDict, nodes: map<string, (string, string)>, i: nat)
    requires forall x :: x in order ==> x in d.aliases
    requires i < |EmitAll(codes, order, d, nodes).taxa|
    ensures ByCode(EmitAll(codes, order, d, nodes).taxa[i], CodesAfter(codes, order, d, nodes))
    decreases i
  {
    var r := EmitTaxon(codes, order[0], d.aliases[order[0]], nodes);
    assert r.Ok?;
    var codes' := r.value.1;
    var rest := EmitAll(codes', order[1..], d, nodes);
    assert EmitAll(codes, order, d, nodes).taxa == [r.value.0] + rest.taxa;
    assert CodesAfter(codes, order, d, nodes) == CodesAfter(codes', order[1..], d, nodes);
    if i > 0 {
      EmitByCode(codes', order[1..], d, nodes, i - 1);
    } else {
      CodesAfterGrows(codes', order[1..], d, nodes);
      ByCodeGrows(r.value.0, codes', CodesAfter(codes', order[1..], d, nodes));
    }
  }

  /** An order `namesDict.items()` may take: every id of `names.dmp` once.
      A Python 2 dictionary gives no guarantee about which. */
  ghost predicate EmitOrder(names: seq<string>, order: seq<string>)
  {
    Distinct(order) && forall x :: x in order <==> AliasesOf(names, x) != []
  }

  /** Every id of an emit order has its entry in `namesDict`. */
  lemma OrderInDict(names: seq<string>, order: seq<string>, d: NamesDict)
    requires ParseNames(NamesDict([], map[]), names) == Ok(d) && EmitOrder(names, order)
    ensures forall x :: x in order ==> x in d.aliases
  {
    forall x | x in order
      ensures x in d.aliases
    {
      ParseNamesAliases(NamesDict([], map[]), names, x);
    }
  }

  /** The order in which the ids first appear, which a dictionary that keeps
      insertion order would give, is an emit order. */
  lemma FirstAppearance(names: seq<string>)
    requires NamesParse(names)
    ensures ParseNames(NamesDict([], map[]), names).Ok?
    ensures EmitOrder(names, ParseNames(NamesDict([], map[]), names).value.ids)
  {
    ParseNamesOk(NamesDict([], map[]), names);
    var d := ParseNames(NamesDict([], map[]), names).value;
    assert DictOk(d);
    forall x
      ensures x in d.ids <==> AliasesOf(names, x) != []
    {
      ParseNamesAliases(NamesDict([], map[]), names, x);
    }
  }

  /** `ParseTaxdumpFile` on the lines of the two dump files, the taxa taken
      in the emit order `order`. A line that does not unpack stops it before
      any record is written. */
  function Compile(names: seq<string>, nodes: seq<string>, order: seq<string>): Result<Dump, Failure>
    requires EmitOrder(names, order)
  {
    match ParseNames(NamesDict([], map[]), names)
    case Err(e) => Err(e)
    case Ok(d) =>
      match ParseNodes(map[], nodes)
      case Err(e) => Err(e)
      case Ok(m) =>
        OrderInDict(names, order, d);
        Ok(EmitAll(FirstCodes(), order, d, m))
  }

  /** The compilation gets to write records exactly when every non-blank
      line of both dump files unpacks. */
  lemma CompileOk(names: seq<string>, nodes: seq<string>, order: seq<string>)
    requires EmitOrder(names, order)
    ensures Compile(names, nodes, order).Ok? <==> NamesParse(names) && NodesParse(nodes)
  {
    ParseNamesOk(NamesDict([], map[]), names);
    ParseNodesSpec(map[], nodes);
  }

  /** The records of one taxon, read off the dump files: the id has lines
      in both files, the parent and rank come from its last `nodes.dmp`
      line, and every alias of its `names.dmp` lines is paired with its
      class, the aliases of a class in line order, a scientific name first. */
  ghost predicate FromDump(names: seq<string>, nodes: seq<string>, t: Taxon)
  {
    && |t.data| >= 1
    && AliasesOf(names, t.data[0]) != [] && LastNode(nodes, t.data[0]).Some?
    && Header(t, t.data[0], AliasesOf(names, t.data[0]), LastNode(nodes, t.data[0]).value)
    && Ordered(t, AliasesOf(names, t.data[0]))
  }

  /** What the compilation writes: one taxon per id of `names.dmp`, each id
      once, in the emit order, each taxon as `FromDump` describes; it stops
      only at an id without a node or at a 256th name class, and without a
      stop every id is written. */
  lemma CompileRecords(names: seq<string>, nodes: seq<string>, order: seq<string>)
    requires EmitOrder(names, order) && Compile(names, nodes, order).Ok?
    ensures var r := Compile(names, nodes, order).value;
      && (forall i :: 0 <= i < |r.taxa| ==> FromDump(names, nodes, r.taxa[i]))
      && Distinct(Ids(r.taxa))
  {
    CompiledIds(names, nodes, order);
  }

  /** Without a stop, every id of `names.dmp` gets its taxon. */
  lemma CompileComplete(names: seq<string>, nodes: seq<string>, order: seq<string>, x: string)
    requires EmitOrder(names, order) && Compile(names, nodes, order).Ok?
    requires Compile(names, nodes, order).value.failure.None?
    ensures var r := Compile(names, nodes, order).value;
      (forall i :: 0 <= i < |r.taxa| ==> |r.taxa[i].data| >= 1)
      && (x in Ids(r.taxa) <==> AliasesOf(names, x) != [])
  {
    var r := Compile(names, nodes, order).value;
    CompiledIds(names, nodes, order);
    assert order[..|r.taxa|] == order;
  }

  /** A stop at a missing node names an id of `names.dmp` without a
      `nodes.dmp` line. */
  lemma CompileMissing(names: seq<string>, nodes: seq<string>, order: seq<string>)
    requires EmitOrder(names, order) && Compile(names, nodes, order).Ok?
    requires Compile(names, nodes, order).value.failure.Some?
    requires Compile(names, nodes, order).value.failure.value.MissingNode?
    ensures LastNode(nodes, Compile(names, nodes, order).value.failure.value.id).None?
    ensures AliasesOf(names, Compile(names, nodes, order).value.failure.value.id) != []
  {
    var r := Compile(names, nodes, order).value;
    NodeAt(nodes, r.failure.value.id);
    assert order[|r.taxa|] in order;
  }

  /** The i-th taxon written is the one of the i-th id of the emit order. */
  lemma CompiledTaxon(names: seq<string>, nodes: seq<string>, order: seq<string>, i: nat)
    requires EmitOrder(names, order) && Compile(names, nodes, order).Ok?
    requires i < |Compile(names, nodes, order).value.taxa|
    ensures FromDump(names, nodes, Compile(names, nodes, order).value.taxa[i])
    ensures Compile(names, nodes, order).value.taxa[i].data[0] == order[i]
  {
    var d := ParseNames(NamesDict([], map[]), names).value;
    var m := ParseNodes(map[], nodes).value;
    OrderInDict(names, order, d);
    var r := EmitAll(FirstCodes(), order, d, m);
    assert Compile(names, nodes, order) == Ok(r);
    EmitAt(FirstCodes(), order, d, m, i);
    TaxonFromDump(names, nodes, d, m, r.taxa[i], order[i]);
  }

  /** The taxa written are those of a prefix of the emit order. */
  lemma CompiledIds(names: seq<string>, nodes: seq<string>, order: seq<string>)
    requires EmitOrder(names, order) && Compile(names, nodes, order).Ok?
    ensures var r := Compile(names, nodes, order).value;
      && (forall i :: 0 <= i < |r.taxa| ==> FromDump(names, nodes, r.taxa[i]))
      && Ids(r.taxa) == order[..|r.taxa|]
  {
    var r := Compile(names, nodes, order).value;
    forall i | 0 <= i < |r.taxa|
      ensures FromDump(names, nodes, r.taxa[i]) && r.taxa[i].data[0] == order[i]
    {
      CompiledTaxon(names, nodes, order, i);
    }
  }

  /** One code map serves every taxon written: "scientific name" has code 0,
      no two classes share a code, and every taxon's classes are in code
      order. */
  lemma CompileByCode(names: seq<string>, nodes: seq<string>, order: seq<string>)
    requires EmitOrder(names, order) && Compile(names, nodes, order).Ok?
    ensures var r := Compile(names, nodes, order).value;
      exists codes :: CodesOk(codes) && forall i :: 0 <= i < |r.taxa| ==> ByCode(r.taxa[i], codes)
  {
    var d := ParseNames(NamesDict([], map[]), names).value;
    var m := ParseNodes(map[], nodes).value;
    OrderInDict(names, order, d);
    var r := EmitAll(FirstCodes(), order, d, m);
    assert Compile(names, nodes, order) == Ok(r);
    var codes := CodesAfter(FirstCodes(), order, d, m);
    CodesAfterGrows(FirstCodes(), order, d, m);
    forall i | 0 <= i < |r.taxa|
      ensures ByCode(r.taxa[i], codes)
    {
      EmitByCode(FirstCodes(), order, d, m, i);
    }
  }

  /** Where the nodes loop puts an id. */
  lemma NodeAt(nodes: seq<string>, x: string)
    requires ParseNodes(map[], nodes).Ok?
    ensures x in ParseNodes(map[], nodes).value <==> LastNode(nodes, x).Some?
    ensures x in ParseNodes(map[], nodes).value ==> ParseNodes(map[], nodes).value[x] == LastNode(nodes, x).value
  {
    ParseNodesSpec(map[], nodes);
  }

  /** One taxon the loop wrote, read off the dump files. */
  lemma TaxonFromDump(names: seq<string>, nodes: seq<string>, d: NamesDict, m: map<string, (string, string)>, t: Taxon, id: string)
    requires ParseNames(NamesDict([], map[]), names) == Ok(d) && ParseNodes(map[], nodes) == Ok(m)
    requires id in d.aliases && id in m
    requires Header(t, id, d.aliases[id], m[id]) && Ordered(t, d.aliases[id])
    ensures FromDump(names, nodes, t)
  {
    ParseNamesAliases(NamesDict([], map[]), names, id);
    NodeAt(nodes, id);
    assert t.data[0] == id;
    assert d.aliases[id] == AliasesOf(names, id);
  }

  /** The ids of the taxa written. */
  function Ids(taxa: seq<Taxon>): (ids: seq<string>)
    requires forall i :: 0 <= i < |taxa| ==> |taxa[i].data| >= 1
    ensures |ids| == |taxa| && forall i :: 0 <= i < |taxa| ==> ids[i] == taxa[i].data[0]
  {
    seq(|taxa|, i requires 0 <= i < |taxa| && |taxa[i].data| >= 1 => taxa[i].data[0])
  }
}

=== FILE: taxonomy.dfy ===
/** The `Taxonomy` front end: two record stores read through `TextDB`, one
    holding `id, parent, rank, names...` per taxon and one holding
    `id, name classes...` in the same order as those names. */
module Taxonomy {
  import opened Wrappers
  import opened Strings
  import opened Codec
  import opened TextDB
  import opened Queries
  import opened Lookup

  /** The taxon store and the name-class store, each with its own cache. */
  datatype Stores = Stores(text: DB, info: DB)

  /** `"species" in s`. */
  function HasSpecies(s: string): (b: bool)
    ensures b <==> Occurs(s, "species")
  {
    Find(s, "species", 0) != -1
  }

  /** Python's `s[n:]` for a non-negative `n`: empty when `s` is shorter than `n`. */
  function Drop<A>(s: seq<A>, n: nat): (r: seq<A>)
    ensures |r| == if |s| <= n then 0 else |s| - n
    ensures forall i :: 0 <= i < |r| ==> r[i] == s[n + i]
  {
    if |s| <= n then [] else s[n..]
  }

  /** Python's `zip(a, b)`: pairs up to the shorter of the two. */
  function Zip<A, B>(a: seq<A>, b: seq<B>): (z: seq<(A, B)>)
    ensures |z| == if |a| < |b| then |a| else |b|
    ensures forall i :: 0 <= i < |z| ==> z[i] == (a[i], b[i])
    decreases |a|
  {
    if a == [] || b == [] then [] else [(a[0], b[0])] + Zip(a[1..], b[1..])
  }

  /** `taxonomy[id]`: the scientific name, the third field after the id.
      An unknown id raises `NameError`, because the handler names the
      undefined `UnknownSpiciesIdentifier`; a short entry raises `IndexError`. */
  function Name(t: Stores, id: string): (out: (Result<string, Error>, Stores))
    ensures out.1.info == t.info && out.1.text.text == t.text.text
    ensures out.0.Err? ==> out.0.error == NameError || out.0.error == IndexError
    ensures out.0 == Err(NameError) ==> out.1 == t
  {
    var (r, db) := GetItem(t.text, id);
    match r
    case Err(KeyError(_)) => (Err(NameError), t.(text := db))
    case Err(e) => (Err(e), t.(text := db))
    case Ok(entry) => (if |entry| < 3 then Err(IndexError) else Ok(entry[2]), t.(text := db))
  }

  /** `other_names(id)`: every name after the scientific one paired with its
      name class, as far as both lists reach. An unknown id raises
      `NameError`; an id missing from the class store raises its `KeyError`. */
  function OtherNames(t: Stores, id: string): (out: (Result<seq<(string, string)>, Error>, Stores))
    ensures out.1.text.text == t.text.text && out.1.info.text == t.info.text
    ensures out.0.Err? ==> out.0.error == NameError || out.0.error == KeyError(id)
    ensures out.0 == Err(NameError) ==> out.1 == t
  {
    var (r, db) := GetItem(t.text, id);
    match r
    case Err(KeyError(_)) => (Err(NameError), t.(text := db))
    case Err(e) => (Err(e), t.(text := db))
    case Ok(entry) =>
      var (ri, dbi) := GetItem(t.info, id);
      match ri
      case Err(e) => (Err(e), Stores(db, dbi))
      case Ok(classes) => (Ok(Drop(Zip(Drop(entry, 2), classes), 1)), Stores(db, dbi))
  }

  /** `a` is `b` with some elements left out, the rest kept in order. */
  predicate SubSeq(a: seq<string>, b: seq<string>)
    decreases |b|
  {
    if a == [] then true
    else if b == [] then false
    else (a[0] == b[0] && SubSeq(a[1..], b[1..])) || SubSeq(a, b[1..])
  }

  lemma {:induction false} SubSeqSelf(a: seq<string>)
    ensures SubSeq(a, a)
    decreases |a|
  {
    if a != [] {
      SubSeqSelf(a[1..]);
    }
  }

  /** The filter of `search` with `onlySpecies`: keep the ids whose rank,
      the second field after the id, mentions "species". Every id is looked
      up through the cache; a short entry raises `IndexError`. */
  function KeepSpecies(db: DB, ids: seq<string>): (out: (Result<seq<string>, Error>, DB))
    ensures out.1.text == db.text
    ensures db.cache.Keys <= out.1.cache.Keys
    ensures out.0.Ok? ==> |out.0.value| <= |ids| && forall x :: x in out.0.value ==> x in ids
    ensures out.0.Ok? ==> SubSeq(out.0.value, ids)
    decreases |ids|
  {
    if ids == [] then (Ok([]), db)
    else
      var (r, db1) := GetItem(db, ids[0]);
      match r
      case Err(e) => (Err(e), db1)
      case Ok(fields) =>
        if |fields| < 2 then (Err(IndexError), db1)
        else
          var (rest, db2) := KeepSpecies(db1, ids[1..]);
          match rest
          case Err(e) => (Err(e), db2)
          case Ok(kept) => (Ok(if HasSpecies(fields[1]) then [ids[0]] + kept else kept), db2)
  }

  /** `search(string, onlySpecies)`. */
  function SearchTaxa(t: Stores, s: string, onlySpecies: bool): (out: (Result<seq<string>, Error>, Stores))
    requires !ScanNeverEnds(Lower(t.text.text), Lower(s), true)
    ensures out.1.info == t.info && out.1.text.text == t.text.text
    ensures !onlySpecies ==> out == (Search(t.text, s).0, t.(text := Search(t.text, s).1))
    ensures out.0.Ok? ==> Search(t.text, s).0.Ok? && SubSeq(out.0.value, Search(t.text, s).0.value)
  {
    var (r, db) := Search(t.text, s);
    if !onlySpecies || r.Err? then
      (if r.Ok? then SubSeqSelf(r.value); (r, t.(text := db)) else (r, t.(text := db)))
    else
      var (kept, db') := KeepSpecies(db, r.value);
      (kept, t.(text := db'))
  }

  /** `iter(taxonomy)`: the ids of the taxon store. */
  function Ids(t: Stores): seq<string>
    requires !ScanNeverEnds(Lower(t.text.text), [START], true)
  {
    Iter(t.text)
  }

  /** On cached ids the filter touches nothing, fails exactly when some
      entry is short, and keeps exactly the ids whose rank mentions "species". */
  lemma {:induction false} KeepCached(db: DB, ids: seq<string>)
    requires forall x :: x in ids ==> x in db.cache
    ensures KeepSpecies(db, ids).1 == db
    ensures KeepSpecies(db, ids).0.Ok? <==> forall x :: x in ids ==> |Decode(db.cache[x])| >= 3
    ensures KeepSpecies(db, ids).0.Ok? ==>
      forall x :: x in KeepSpecies(db, ids).0.value <==> x in ids && HasSpecies(Decode(db.cache[x])[2])
    decreases |ids|
  {
    if ids != [] {
      KeepCached(db, ids[1..]);
      assert forall x :: x in ids <==> x == ids[0] || x in ids[1..];
    }
  }

  /** `taxonomy[id]` on a well-formed taxon store, for an id not yet cached:
      the third field after the id of the first record answering the lookup. */
  lemma NameStore(rs: seq<seq<string>>, info: DB, cache: map<string, string>, id: string)
    requires RecordsOk(rs) && MarkerFree(id) && id !in cache
    ensures Name(Stores(DB(Buffer(rs), cache), info), id).0 ==
      match FindKey(rs, id, 0)
      case None => Err(NameError)
      case Some(k) => if |rs[k]| < 4 then Err(IndexError) else Ok(rs[k][3])
  {
    GetItemStore(rs, cache, id);
  }

  /** Every name `taxonomy[id]` gives on a well-formed store with a sound
      cache is the third field after the id of a record whose id equals
      `id` up to case. */
  lemma NameSound(rs: seq<seq<string>>, info: DB, cache: map<string, string>, id: string)
    requires RecordsOk(rs) && MarkerFree(id) && CacheSound(rs, cache)
    ensures var r := Name(Stores(DB(Buffer(rs), cache), info), id).0;
      r.Ok? ==> exists k :: 0 <= k < |rs| && |rs[k]| >= 4 && Lower(rs[k][0]) == Lower(id) && r.value == rs[k][3]
  {
    GetItemSound(rs, cache, id);
  }

  /** The pairs of `other_names` for a taxon record and its class record:
      the i-th name after the scientific one with the i-th class after the
      scientific one's, as far as both records reach. */
  ghost predicate OtherPairs(pairs: seq<(string, string)>, entry: seq<string>, classes: seq<string>)
  {
    && |pairs| == (if |entry| <= 4 || |classes| <= 2 then 0
                   else if |entry| - 4 < |classes| - 2 then |entry| - 4 else |classes| - 2)
    && forall i :: 0 <= i < |pairs| ==> pairs[i] == (entry[i + 4], classes[i + 2])
  }

  /** The list `other_names` builds from a taxon record and a class record. */
  lemma PairsOf(entry: seq<string>, classes: seq<string>)
    requires |entry| >= 1 && |classes| >= 1
    ensures OtherPairs(Drop(Zip(Drop(entry[1..], 2), classes[1..]), 1), entry, classes)
  {
  }

  /** `other_names(id)` on well-formed stores, for an id cached in neither. */
  lemma OtherNamesStore(rs: seq<seq<string>>, cs: seq<seq<string>>, c1: map<string, string>, c2: map<string, string>, id: string)
    requires RecordsOk(rs) && RecordsOk(cs) && MarkerFree(id) && id !in c1 && id !in c2
    ensures var out := OtherNames(Stores(DB(Buffer(rs), c1), DB(Buffer(cs), c2)), id).0;
      match FindKey(rs, id, 0)
      case None => out == Err(NameError)
      case Some(k) =>
        match FindKey(cs, id, 0)
        case None => out == Err(KeyError(id))
        case Some(j) => out.Ok? && OtherPairs(out.value, rs[k], cs[j])
  {
    GetItemStore(rs, c1, id);
    GetItemStore(cs, c2, id);
    match FindKey(rs, id, 0)
    case None =>
    case Some(k) =>
      match FindKey(cs, id, 0)
      case None =>
      case Some(j) => PairsOf(rs[k], cs[j]);
  }

  /** Some record whose id equals `x` up to case has a rank mentioning "species". */
  ghost predicate SpeciesRecord(rs: seq<seq<string>>, x: string)
  {
    exists k :: 0 <= k < |rs| && |rs[k]| >= 3 && Lower(rs[k][0]) == Lower(x) && Occurs(rs[k][2], "species")
  }

  /** One lookup of the species filter keeps the cache sound, and an id it
      keeps names a record whose rank mentions "species". */
  lemma KeepHead(rs: seq<seq<string>>, cache: map<string, string>, x: string)
    requires RecordsOk(rs) && CacheSound(rs, cache) && MarkerFree(x)
    ensures var (r, db1) := GetItem(DB(Buffer(rs), cache), x);
      && db1 == DB(Buffer(rs), db1.cache)
      && CacheSound(rs, db1.cache)
      && (r.Ok? && |r.value| >= 2 && HasSpecies(r.value[1]) ==> SpeciesRecord(rs, x))
  {
    GetItemSound(rs, cache, x);
    GetEntryKeepsCache(rs, cache, x);
  }

  /** The species filter on a well-formed store with a sound cache keeps the
      cache sound and keeps only ids of records, equal up to case, whose
      rank mentions "species". */
  lemma {:induction false} KeepSound(rs: seq<seq<string>>, cache: map<string, string>, ids: seq<string>)
    requires RecordsOk(rs) && CacheSound(rs, cache)
    requires forall x :: x in ids ==> MarkerFree(x)
    ensures var out := KeepSpecies(DB(Buffer(rs), cache), ids);
      && CacheSound(rs, out.1.cache)
      && (out.0.Ok? ==> forall x :: x in out.0.value ==> SpeciesRecord(rs, x))
    decreases |ids|
  {
    if ids != [] {
      KeepHead(rs, cache, ids[0]);
      var (r, db1) := GetItem(DB(Buffer(rs), cache), ids[0]);
      KeepSound(rs, db1.cache, ids[1..]);
    }
  }

  /** `search(s)` with `onlySpecies` on a well-formed store with a sound
      cache: every reported id is the id of a record holding `s`, ignoring
      case, and names a record whose rank mentions "species". */
  lemma SearchSpecies(rs: seq<seq<string>>, info: DB, s: string, cache: map<string, string>)
    requires RecordsOk(rs) && Searchable(s) && CacheSound(rs, cache)
    ensures !ScanNeverEnds(Lower(Buffer(rs)), Lower(s), true)
    ensures var out := SearchTaxa(Stores(DB(Buffer(rs), cache), info), s, true).0;
      out.Ok? ==> forall x :: x in out.value ==>
        && (exists j :: 0 <= j < |rs| && |rs[j]| >= 1 && rs[j][0] == x && Occurs(Lower(Body(rs[j])), Lower(s)))
        && SpeciesRecord(rs, x)
  {
    SearchStore(rs, s, cache);
    SearchKeepsSound(rs, s, cache);
    var sr := SearchRecords(rs, Lower(s), cache);
    SearchOkIff(rs, Lower(s), cache);
    if sr.0.Ok? {
      forall x | x in sr.0.value
        ensures MarkerFree(x)
        ensures exists j :: 0 <= j < |rs| && |rs[j]| >= 1 && rs[j][0] == x && Occurs(Lower(Body(rs[j])), Lower(s))
      {
        MatchingIdsIn(rs, Lower(s), x);
        var j :| 0 <= j < |rs| && |rs[j]| >= 1 && rs[j][0] == x && Occurs(Lower(Body(rs[j])), Lower(s));
        assert FieldsOk(rs[j]);
      }
      KeepSound(rs, sr.1, sr.0.value);
    }
  }

  /** An id a successful search reports on records with distinct ids names
      a record holding the pattern, and the cache then holds that record. */
  lemma SearchedRecord(rs: seq<seq<string>>, p: string, cache: map<string, string>, x: string) returns (j: nat)
    requires RecordsOk(rs) && DistinctIds(rs) && SearchRecords(rs, p, cache).0.Ok?
    requires x in SearchRecords(rs, p, cache).0.value
    ensures j < |rs| && |rs[j]| >= 2 && rs[j][0] == x && Occurs(Lower(Body(rs[j])), p)
    ensures x in SearchRecords(rs, p, cache).1 && Decode(SearchRecords(rs, p, cache).1[x]) == rs[j]
  {
    SearchOkIff(rs, p, cache);
    MatchingIdsIn(rs, p, x);
    j :| 0 <= j < |rs| && |rs[j]| >= 1 && rs[j][0] == x && Occurs(Lower(Body(rs[j])), p);
    SearchCached(rs, p, cache, j);
    assert FieldsOk(rs[j]);
    DecodeBody(rs[j]);
  }

  /** `search(s)` with `onlySpecies` on records with distinct ids succeeds
      exactly when every record holding `s`, ignoring case, has a rank. */
  lemma SearchSpeciesOk(rs: seq<seq<string>>, info: DB, s: string, cache: map<string, string>)
    requires RecordsOk(rs) && Searchable(s) && DistinctIds(rs)
    ensures !ScanNeverEnds(Lower(Buffer(rs)), Lower(s), true)
    ensures SearchTaxa(Stores(DB(Buffer(rs), cache), info), s, true).0.Ok? <==>
      forall j :: 0 <= j < |rs| && Occurs(Lower(Body(rs[j])), Lower(s)) ==> |rs[j]| >= 3
  {
    SearchStore(rs, s, cache);
    var p := Lower(s);
    var sr := SearchRecords(rs, p, cache);
    SearchOkIff(rs, p, cache);
    if sr.0.Ok? {
      var ids := sr.0.value;
      var db := DB(Buffer(rs), sr.1);
      forall x | x in ids
        ensures x in sr.1
      {
        var _ := SearchedRecord(rs, p, cache, x);
      }
      KeepCached(db, ids);
      if KeepSpecies(db, ids).0.Ok? {
        forall j | 0 <= j < |rs| && Occurs(Lower(Body(rs[j])), p)
          ensures |rs[j]| >= 3
        {
          MatchingIdsIn(rs, p, rs[j][0]);
          var k := SearchedRecord(rs, p, cache, rs[j][0]);
          assert k == j;
        }
      }
      if forall j :: 0 <= j < |rs| && Occurs(Lower(Body(rs[j])), p) ==> |rs[j]| >= 3 {
        forall x | x in ids
          ensures |Decode(db.cache[x])| >= 3
        {
          var _ := SearchedRecord(rs, p, cache, x);
        }
      }
    }
  }

  /** `search(s)` with `onlySpecies` on records with distinct ids reports
      exactly the ids of the records that hold `s`, ignoring case, and whose
      rank mentions "species". */
  lemma SearchSpeciesAll(rs: seq<seq<string>>, info: DB, s: string, cache: map<string, string>, x: string)
    requires RecordsOk(rs) && Searchable(s) && DistinctIds(rs)
    ensures !ScanNeverEnds(Lower(Buffer(rs)), Lower(s), true)
    ensures var out := SearchTaxa(Stores(DB(Buffer(rs), cache), info), s, true).0;
      out.Ok? ==> (x in out.value <==>
        exists j :: 0 <= j < |rs| && |rs[j]| >= 3 && rs[j][0] == x && Occurs(Lower(Body(rs[j])), Lower(s)) && HasSpecies(rs[j][2]))
  {
    SearchStore(rs, s, cache);
    var p := Lower(s);
    var sr := SearchRecords(rs, p, cache);
    if sr.0.Ok? {
      var ids := sr.0.value;
      var db := DB(Buffer(rs), sr.1);
      forall y | y in ids
        ensures y in sr.1
      {
        var _ := SearchedRecord(rs, p, cache, y);
      }
      KeepCached(db, ids);
      var out := KeepSpecies(db, ids).0;
      if out.Ok? {
        if x in out.value {
          var j := SearchedRecord(rs, p, cache, x);
        }
        if exists j :: 0 <= j < |rs| && |rs[j]| >= 3 && rs[j][0] == x && Occurs(Lower(Body(rs[j])), p) && HasSpecies(rs[j][2]) {
          var j :| 0 <= j < |rs| && |rs[j]| >= 3 && rs[j][0] == x && Occurs(Lower(Body(rs[j])), p) && HasSpecies(rs[j][2]);
          SearchOkIff(rs, p, cache);
          MatchingIdsIn(rs, p, x);
          var k := SearchedRecord(rs, p, cache, x);
          assert k == j;
        }
      }
    }
  }

  /** `search(s)` with `onlySpecies` reports ids in store order: what it
      reports is the list of ids of the records holding `s`, ignoring case,
      with some left out and the rest in the order of the store. */
  lemma SearchSpeciesOrder(rs: seq<seq<string>>, info: DB, s: string, cache: map<string, string>)
    requires RecordsOk(rs) && Searchable(s)
    ensures !ScanNeverEnds(Lower(Buffer(rs)), Lower(s), true)
    ensures var out := SearchTaxa(Stores(DB(Buffer(rs), cache), info), s, true).0;
      out.Ok? ==> SubSeq(out.value, MatchingIds(rs, Lower(s)))
  {
    SearchStore(rs, s, cache);
    SearchOkIff(rs, Lower(s), cache);
  }
}

=== FILE: textdb.dfy ===
/** `TextDB`: a record store kept in one string buffer. Every operation scans
    the buffer with `find`/`rfind`; lookups go through a per-instance cache. */
module TextDB {
  import opened Wrappers
  import opened Strings
  import opened Codec
  import Cache

  /** The exceptions the store and its callers raise. */
  datatype Error = KeyError(key: string) | ValueError | IndexError | NameError

  /** One `TextDB` instance: the buffer `_text` and the dictionary `_cache`. */
  datatype DB = DB(text: string, cache: map<string, string>)

  /** `TextDB()`: an empty buffer and an empty cache. */
  function Empty(): DB
  {
    DB([], map[])
  }

  /** `TextDB(file)`: the file's bytes, with an empty cache. */
  function Open(contents: string): DB
  {
    DB(contents, map[])
  }

  /** The scan of `_find_all` never stops. In unique mode, once no start
      marker follows a hit, the scan restarts at `find(string, -1)`, that is at
      the last byte; it yields that byte forever when the pattern matches
      there, which happens for the empty pattern and for a one-character
      pattern equal to the last byte. */
  predicate ScanNeverEnds(text: string, pat: string, unique: bool)
  {
    unique && (|pat| == 0 || (|pat| == 1 && |text| > 0 && text[|text| - 1] == pat[0]))
  }

  function ScanMeasure(text: string, start: int): nat
  {
    var s := ClampStart(|text|, start);
    if s <= |text| then |text| + 1 - s else 0
  }

  /** A one-character match at the last byte is exactly the never-ending case. */
  lemma LastByteMatch(text: string, pat: string, h: int)
    requires |pat| == 1 && MatchAt(text, pat, h) && h == |text| - 1
    ensures text[|text| - 1] == pat[0]
  {
    assert text[h..h + 1][0] == text[h];
  }

  /** Each step of the scan moves strictly forward, past the hit it yielded. */
  lemma ScanProgress(text: string, pat: string, start: int, unique: bool, h: int, next: int)
    requires !ScanNeverEnds(text, pat, unique)
    requires h == Find(text, pat, start) && h != -1
    requires next == if unique then Find(text, [START], h + 1) else h + 1
    ensures h < ClampStart(|text|, next)
    ensures ScanMeasure(text, next) < ScanMeasure(text, start)
    ensures next == -1 ==> Find(text, pat, next) == -1
  {
    if next == -1 && h == |text| - 1 {
      LastByteMatch(text, pat, h);
    }
    if next == -1 {
      RestartFindsNothing(text, pat);
    }
  }

  /** The restart at `find(string, -1)` finds nothing when the scan ends. */
  lemma RestartFindsNothing(text: string, pat: string)
    requires !ScanNeverEnds(text, pat, true)
    ensures Find(text, pat, -1) == -1
  {
    forall j | ClampStart(|text|, -1) <= j
      ensures !MatchAt(text, pat, j)
    {
      if |pat| == 1 && j == |text| - 1 {
        MatchAtFirst(text, pat, j);
      }
    }
    FindNone(text, pat, -1);
  }

  /** Every hit is a match at or after `lo`. */
  ghost predicate HitsMatch(text: string, pat: string, lo: nat, hits: seq<nat>)
  {
    forall i :: 0 <= i < |hits| ==> MatchAt(text, pat, hits[i]) && lo <= hits[i]
  }

  /** The hits strictly ascend. */
  predicate HitsAscend(hits: seq<nat>)
  {
    forall i :: 0 <= i < |hits| - 1 ==> hits[i] < hits[i + 1]
  }

  /** A start marker follows each hit, at or before the next hit. */
  predicate HitsSeparated(text: string, hits: seq<nat>)
  {
    forall i :: 0 <= i < |hits| - 1 ==> hits[i] < Find(text, [START], hits[i] + 1) <= hits[i + 1]
  }

  /** What the hits of a scan from `start` satisfy: each is a match at or
      after the start, they ascend, and in unique mode at most one hit falls
      between two start markers. */
  ghost predicate ScanHits(text: string, pat: string, start: int, unique: bool, hits: seq<nat>)
  {
    HitsMatch(text, pat, ClampStart(|text|, start), hits) && HitsAscend(hits) && (unique ==> HitsSeparated(text, hits))
  }

  lemma HitsMatchCons(text: string, pat: string, lo: nat, h: nat, lo2: nat, rest: seq<nat>)
    requires MatchAt(text, pat, h) && lo <= h && lo <= lo2 && HitsMatch(text, pat, lo2, rest)
    ensures HitsMatch(text, pat, lo, [h] + rest)
  {
    var hits := [h] + rest;
    forall i | 0 < i < |hits|
      ensures MatchAt(text, pat, hits[i]) && lo <= hits[i]
    {
      assert hits[i] == rest[i - 1];
    }
  }

  lemma HitsAscendCons(h: nat, rest: seq<nat>)
    requires HitsAscend(rest) && (rest != [] ==> h < rest[0])
    ensures HitsAscend([h] + rest)
  {
    var hits := [h] + rest;
    forall i | 0 < i < |hits| - 1
      ensures hits[i] < hits[i + 1]
    {
      assert hits[i] == rest[i - 1] && hits[i + 1] == rest[i];
    }
  }

  lemma HitsSeparatedCons(text: string, h: nat, rest: seq<nat>)
    requires HitsSeparated(text, rest)
    requires rest != [] ==> h < Find(text, [START], h + 1) <= rest[0]
    ensures HitsSeparated(text, [h] + rest)
  {
    var hits := [h] + rest;
    forall i | 0 <= i < |hits| - 1
      ensures hits[i] < Find(text, [START], hits[i] + 1) <= hits[i + 1]
    {
      if i == 0 {
        assert hits[0] == h && hits[1] == rest[0];
      } else {
        assert hits[i] == rest[i - 1] && hits[i + 1] == rest[i];
      }
    }
  }

  /** One more hit in front of the hits of the rest of the scan. */
  lemma ScanHitsCons(text: string, pat: string, start: int, unique: bool, h: nat, next: int, rest: seq<nat>)
    requires MatchAt(text, pat, h) && ClampStart(|text|, start) <= h < ClampStart(|text|, next)
    requires unique ==> next == Find(text, [START], h + 1)
    requires ScanHits(text, pat, next, unique, rest)
    requires next >= -1 && (next == -1 ==> rest == [])
    ensures ScanHits(text, pat, start, unique, [h] + rest)
  {
    var lo2 := ClampStart(|text|, next);
    HitsMatchCons(text, pat, ClampStart(|text|, start), h, lo2, rest);
    if rest != [] {
      assert lo2 <= rest[0];
      assert next == lo2;
    }
    HitsAscendCons(h, rest);
    if unique {
      HitsSeparatedCons(text, h, rest);
    }
  }

  /** The hits `_find_all(pat, start)` yields over `text`, in order. In unique
      mode the scan resumes at the next start marker after each hit. */
  function FindAllFrom(text: string, pat: string, start: int, unique: bool): seq<nat>
    requires !ScanNeverEnds(text, pat, unique)
    decreases ScanMeasure(text, start)
  {
    var h := Find(text, pat, start);
    if h == -1 then []
    else
      var next := if unique then Find(text, [START], h + 1) else h + 1;
      ScanProgress(text, pat, start, unique, h, next);
      [h] + FindAllFrom(text, pat, next, unique)
  }

  /** Every hit of the scan is a match at or after its start, the hits
      ascend, and in unique mode at most one hit falls between two start
      markers. */
  lemma {:induction false} ScanYields(text: string, pat: string, start: int, unique: bool)
    requires !ScanNeverEnds(text, pat, unique)
    ensures ScanHits(text, pat, start, unique, FindAllFrom(text, pat, start, unique))
    decreases ScanMeasure(text, start)
  {
    var h := Find(text, pat, start);
    if h != -1 {
      var next := if unique then Find(text, [START], h + 1) else h + 1;
      ScanProgress(text, pat, start, unique, h, next);
      ScanYields(text, pat, next, unique);
      var rest := FindAllFrom(text, pat, next, unique);
      assert next == -1 ==> rest == [];
      ScanHitsCons(text, pat, start, unique, h, next, rest);
    }
  }

  /** A scan from a stretch without matches goes on as from its end. */
  lemma ScanSkip(text: string, pat: string, a: nat, b: nat, unique: bool)
    requires !ScanNeverEnds(text, pat, unique)
    requires a <= b
    requires forall j :: a <= j < b ==> !MatchAt(text, pat, j)
    ensures FindAllFrom(text, pat, a, unique) == FindAllFrom(text, pat, b, unique)
  {
    FindSkip(text, pat, a, b);
    ScanSameFirst(text, pat, a, b, unique);
  }

  /** Two scans whose first hit is the same yield the same hits. */
  lemma ScanSameFirst(text: string, pat: string, a: int, b: int, unique: bool)
    requires !ScanNeverEnds(text, pat, unique)
    requires Find(text, pat, a) == Find(text, pat, b)
    ensures FindAllFrom(text, pat, a, unique) == FindAllFrom(text, pat, b, unique)
  {
    var h := Find(text, pat, a);
    if h != -1 {
      var next := if unique then Find(text, [START], h + 1) else h + 1;
      ScanStep(text, pat, a, unique, h, next);
      ScanStep(text, pat, b, unique, h, next);
    }
  }

  /** A scan whose first hit is `h` yields `h`, then the hits from `next`. */
  lemma ScanStep(text: string, pat: string, start: int, unique: bool, h: int, next: int)
    requires !ScanNeverEnds(text, pat, unique)
    requires h == Find(text, pat, start) && h != -1
    requires next == if unique then Find(text, [START], h + 1) else h + 1
    ensures FindAllFrom(text, pat, start, unique) == [h] + FindAllFrom(text, pat, next, unique)
  {
  }

  /** `_find_all(pat)` from the start of the buffer: ascending matches, in
      unique mode one per stretch between start markers. */
  function FindAll(text: string, pat: string, unique: bool): (hits: seq<nat>)
    requires !ScanNeverEnds(text, pat, unique)
    ensures ScanHits(text, pat, 0, unique, hits)
  {
    ScanYields(text, pat, 0, unique);
    FindAllFrom(text, pat, 0, unique)
  }

  /** `_get_entry_at(index)`: the text between the last start marker at or
      before `index` and the first end marker at or after it. */
  function GetEntryAt(text: string, index: nat): string
  {
    var start := RFind(text, [START], index + 1);
    var end := Find(text, END, index);
    Slice(text, start + 1, end)
  }

  /** The search pattern of `get_entry`: start marker, id, separator. */
  function KeyPattern(id: string): string
  {
    [START] + id + [SEP]
  }

  /** The undecorated body of `get_entry`: the first hit of the key pattern in
      the lower-cased buffer. The pattern itself is not lower-cased. */
  function LookUp(text: string, id: string): (r: Result<string, Error>)
    ensures r.Err? <==> !Occurs(Lower(text), KeyPattern(id))
    ensures r.Err? ==> r.error == KeyError(id)
  {
    var h := Find(Lower(text), KeyPattern(id), 0);
    if h == -1 then Err(KeyError(id)) else Ok(GetEntryAt(text, h))
  }

  /** `get_entry(id)`, through the instance cache. */
  function GetEntry(db: DB, id: string): (out: (Result<string, Error>, DB))
    ensures out.1.text == db.text
    ensures out.0.Err? ==> out.1 == db
    ensures db.cache.Keys <= out.1.cache.Keys <= db.cache.Keys + {id}
    ensures forall k :: k in db.cache ==> out.1.cache[k] == db.cache[k]
    ensures id in db.cache ==> out == (Ok(db.cache[id]), db)
    ensures id !in db.cache ==> out.0 == LookUp(db.text, id)
    ensures out.0.Ok? ==> id in out.1.cache && out.1.cache[id] == out.0.value
  {
    var (r, c) := Cache.Cached(db.cache, id, k => LookUp(db.text, k));
    (r, db.(cache := c))
  }

  /** The loop body of `search` over the hits: each hit's entry is cached
      under its id. A hit in an entry without a separator makes the
      `id, rest = ...` unpacking raise `ValueError`; entries cached before
      that stay cached. */
  function CollectHits(text: string, hits: seq<nat>, cache: map<string, string>): (out: (Result<seq<string>, Error>, map<string, string>))
    ensures cache.Keys <= out.1.Keys
    ensures out.0.Ok? ==> |out.0.value| == |hits|
    ensures out.0.Ok? ==> forall x :: x in out.0.value ==> x in out.1
    ensures out.0.Ok? ==> forall k :: k in out.1 ==> k in cache || k in out.0.value
    ensures out.0.Err? ==> out.0.error == ValueError
  {
    if hits == [] then (Ok([]), cache)
    else
      var entry := GetEntryAt(text, hits[0]);
      var parts := SplitOnce(entry, [SEP]);
      if |parts| != 2 then (Err(ValueError), cache)
      else
        var (rest, cache') := CollectHits(text, hits[1..], cache[parts[0] := entry]);
        match rest
        case Ok(ids) => (Ok([parts[0]] + ids), cache')
        case Err(e) => (Err(e), cache')
  }

  /** `search(string)`: the ids of the entries holding `string`, ignoring
      case, in buffer order, one per entry; every hit is cached. */
  function Search(db: DB, s: string): (out: (Result<seq<string>, Error>, DB))
    requires !ScanNeverEnds(Lower(db.text), Lower(s), true)
    ensures out.1.text == db.text
    ensures db.cache.Keys <= out.1.cache.Keys
  {
    var hits := FindAll(Lower(db.text), Lower(s), true);
    var (r, c) := CollectHits(db.text, hits, db.cache);
    (r, db.(cache := c))
  }

  /** `insert(entry)`: append one encoded record; the cache is untouched. */
  function Insert(db: DB, fields: seq<string>): (r: DB)
    ensures |r.text| == |db.text| + |Body(fields)| + 3
    ensures r.text[..|db.text|] == db.text
    ensures r.text[|db.text|] == START && r.text[|r.text| - 2..] == END
    ensures r.text[|db.text| + 1..|r.text| - 2] == Body(fields)
    ensures r.cache == db.cache
  {
    DB(db.text + Encode(fields), db.cache)
  }

  /** `db[id] = fields`: one record `id, fields...` appended. */
  function SetItem(db: DB, id: string, fields: seq<string>): (r: DB)
    ensures |r.text| == |db.text| + |Body([id] + fields)| + 3 && r.text[..|db.text|] == db.text
    ensures r.text[|db.text| + 1..|r.text| - 2] == Body([id] + fields)
    ensures r.cache == db.cache
  {
    Insert(db, [id] + fields)
  }

  /** `db[id]`: the fields of the entry after its id. */
  function GetItem(db: DB, id: string): (out: (Result<seq<string>, Error>, DB))
    ensures out.1.text == db.text
    ensures out.0.Err? ==> out.0.error == KeyError(id) && out.1 == db
  {
    var (r, db') := GetEntry(db, id);
    match r
    case Ok(entry) => (Ok(Decode(entry)[1..]), db')
    case Err(e) => (Err(e), db')
  }

  /** The loop body of `__iter__` over the start-marker hits. */
  function IdsAt(text: string, hits: seq<nat>): seq<string>
  {
    if hits == [] then []
    else
      var entry := GetEntryAt(text, hits[0]);
      (if entry != [] then [SplitOnce(entry, [SEP])[0]] else []) + IdsAt(text, hits[1..])
  }

  /** `list(iter(db))`: the first field of every non-empty entry, in buffer order. */
  function Iter(db: DB): seq<string>
    requires !ScanNeverEnds(Lower(db.text), [START], true)
  {
    IdsAt(db.text, FindAll(Lower(db.text), [START], true))
  }

  /** `create(filename)`: the file starts out holding the current buffer. */
  function Create(db: DB): string
  {
    db.text
  }

  /** The writer `create` returns: each call appends one encoded record to the file. */
  function Write(file: string, fields: seq<string>): string
  {
    file + Encode(fields)
  }

  /** A run of writer calls, in order. */
  function WriteAll(file: string, entries: seq<seq<string>>): string
    decreases |entries|
  {
    if entries == [] then file else WriteAll(Write(file, entries[0]), entries[1..])
  }
}

=== FILE: wrappers.dfy ===
/** Option and Result values standing in for Python's `None` and raised exceptions. */
module Wrappers {

  datatype Option<+T> = None | Some(value: T)

  /** The outcome of a call that either returns a value or raises an exception. */
  datatype Result<+T, +E> = Ok(value: T) | Err(error: E)
}
